=== FILE: README.md ===
# Agency workspace: server actions, sidebar, routing and agency forms

This project models the core of a multi-tenant agency application written in
TypeScript. It covers five parts:

- The server actions in `src/lib/queries.ts`. One creates team members, one logs
  activity notifications, and one checks and accepts a pending invitation on each
  agency page load. The others initialise the signed-in user's record, create or
  update an agency with its default menu, and delete an agency.
- The data the sidebar derives from the signed-in user's details
  (`src/components/sidebar/index.tsx`).
- The routing decision the middleware takes after authentication
  (`src/middleware.ts`).
- The two agency forms, `src/components/forms/testForm.tsx` and
  `src/components/forms/agencydetails.tsx`. Each has a validation schema,
  default values and a submit flow. The second also has a delete handler.

The database and the identity provider are modelled as one immutable `World`.
It holds users keyed by email, invitations keyed by email, and agencies keyed
by id, with their menu entries and sub-accounts. It also holds the list of
notifications and the role kept in each principal's private metadata.

Every server action is a pure function from a `World` to a `Step`: the result
(a value, or a thrown error) and the `World` afterwards. The actions are not
transactions. A write made before a later failure stays in the returned
`World`, as it does in the code.

Inputs that come from outside are parameters:

- the signed-in principal (`Option<Principal>`);
- the order in which the store returns rows to a `findFirst` (`scan`);
- fresh identifiers standing in for `v4()`;
- the configured domain (`Option<string>`, because the environment variable
  may be unset);
- the email and URL checks of the validation library, as opaque predicates;
- whether the runtime's URL parser accepts the absolute subdomain rewrite
  target, as an opaque predicate.

Roles and statuses are strings, as the code compares them. This lets the
misspelled `"AGNECY_OWNER"` of the details form be stored as written.

JavaScript semantics that matter to the code's branches are modelled
explicitly:

- truthiness and `||`;
- a missing name renders as `null` in a template string;
- an unset environment variable renders as `undefined`;
- `split("")` returns one piece per character;
- `undefined > 0` is false.

Two behaviours of the database's query builder are modelled as well:

- a `where` filter on an undefined value is dropped;
- an undefined field in an update leaves the stored column alone.

Two behaviours of the code are worth stating outright:

- The invitation check is a chain of separate writes, not one atomic step.
  `QueryLemmas.AcceptIsNotAtomic` shows a user row surviving a failed
  invitation check.
- The default menu links of a new agency are full paths: `/agency/{id}`,
  `/agency/{id}/launchpad`, `/agency/{id}/billing`, `/agency/{id}/settings`,
  `/agency/{id}/all-subaccounts` and `/agency/{id}/team`.

The modules are:

- `Common`: `Option`, `||` on optional strings and template rendering.
- `Store`: entities, the `World`, lookups and user insertion.
- `Queries`: the server actions.
- `QueryLemmas`: properties relating several calls or cases of the actions.
- `Sidebar`: the sidebar derivation.
- `Middleware`: string splitting as the runtime does it, and the routing
  decision.
- `AgencyForm`: what the two forms share, namely validation issues, drafts,
  default helpers and the submit flow.
- `ProfileForm` and `AgencyDetails`: the two forms.

## Model

| member | source | states |
|---|---|---|
| Store.FindUser | src/lib/queries.ts:36-40 | The unique lookup by email finds a user exactly when one is stored under that email, and returns that record. |
| Store.FindPendingInvitation | src/lib/queries.ts:130-135 | The invitation lookup by email and pending status succeeds exactly when an invitation exists for the email and its status is `PENDING`. |
| Store.FindFirstOnSubAccount | src/lib/queries.ts:20-33 | Without a principal, the activity user is the first user in row order whose agency owns the sub-account. With no sub-account id, any sub-account will do. The result is none exactly when no scanned user qualifies. Otherwise it is the user of some scanned row, and no earlier row holds a qualifying user. |
| Store.CreateUser | src/lib/queries.ts:10-12 | Inserting a user succeeds exactly when the email is free and the referenced agency exists. A failed insert writes nothing. |
| Queries.CreateTeamUser | src/lib/queries.ts:8-14 | A record with the owner role is ignored: it returns null and writes nothing. Any other record is inserted as given. The insert succeeds exactly when the email is free and the agency exists. |
| Queries.SaveActivityLogsNotification | src/lib/queries.ts:16-97 | Only the notification list changes. Without a user nothing is written. Missing both ids throws. A written entry reads "name description", is attributed to the user and connected to the agency id as passed, and carries the sub-account id only when that id is non-empty. A user and an id lead to a new entry exactly when the agency id names a stored agency and any non-empty sub-account id names a stored sub-account. Otherwise the connect fails and the call throws. |
| Queries.VerifyAndAcceptInvitation | src/lib/queries.ts:125-170 | Without a principal it redirects to `/sign-in`. A successful call with a principal reports an agency membership. Agencies are never changed. |
| Queries.MetadataRoleFor | src/lib/queries.ts:149-153 | The metadata role is never empty. It equals the stored role whenever that role is non-empty, and it falls back to the sub-account user role when the stored role is empty. |
| Queries.ApplyPatch | src/lib/queries.ts:184-188 | An update overwrites exactly the supplied fields and keeps id, email and agency. |
| Queries.InitUser | src/lib/queries.ts:181-203 | Without a principal nothing happens. Otherwise the principal's user is upserted by email and the metadata role mirrors the stored role. No other table changes. |
| Queries.UpsertAgency | src/lib/queries.ts:205-262 | An empty company email returns null with no write. A failed create returns undefined with no write. A saved agency is stored under its id. Users only ever change in their agency reference. |
| Queries.MergeInfo | src/lib/queries.ts:208-212 | Updating an agency copies every sent column. An undefined white-label flag or logo keeps the stored one. |
| Queries.DeleteAgency | src/lib/queries.ts:172-179 | Deleting succeeds exactly when the agency exists. It returns the deleted row and removes only that agency. A failed delete writes nothing. |
| Store.FindFirstCoversTable | src/lib/queries.ts:20-33 | When the row order lists every stored user, as the store's whole-table search does, the search finds nothing exactly when no stored user lies on the sub-account. |
| QueryLemmas.AnonymousActivityLogged | src/lib/queries.ts:20-79 | Without a principal and over a scan of the whole user table, an entry is written exactly when some stored user lies on the sub-account, an id is given, the agency id names a stored agency and any non-empty sub-account id names a stored sub-account. |
| QueryLemmas.AcceptWithoutInvitation | src/lib/queries.ts:161-169 | Without a pending invitation the check writes nothing and returns the agency of the principal's user record, or none. |
| QueryLemmas.AcceptPendingInvitation | src/lib/queries.ts:136-159 | A non-owner invitation for an existing agency creates the user from the principal and the invitation. It logs "Joined" for that agency with no sub-account, writes the metadata role, deletes the invitation and returns the agency. |
| QueryLemmas.AcceptRegisteredInvitee | src/lib/queries.ts:136-146 | A non-owner invitation for a principal whose email already has a user record makes the create throw a duplicate-email error. Nothing is written and the invitation stays pending. |
| QueryLemmas.AcceptOwnerInvitation | src/lib/queries.ts:136-160 | An owner-role invitation provisions nothing and stays pending, and a successful call returns no agency. The "Joined" entry is still written when the principal already has a record and the invitation names a non-empty, stored agency id; otherwise the activity log throws. |
| QueryLemmas.AcceptMissingAgency | src/lib/queries.ts:137-146 | An invitation whose agency is gone makes the check throw, writes nothing, and stays pending. |
| QueryLemmas.AcceptIsNotAtomic | src/lib/queries.ts:137-158 | With an empty agency id, the user row is written and then the activity log throws. The metadata stays as it was and the invitation stays pending. |
| QueryLemmas.AcceptTwice | src/lib/queries.ts:125-170 | After a successful check, a second check returns the same answer and writes nothing. The exception is a pending owner-role invitation. |
| QueryLemmas.OwnerInvitationLogsEveryCall | src/lib/queries.ts:136-160 | A pending owner-role invitation held by a registered user adds one "Joined" entry on every call. |
| QueryLemmas.AcceptPreservesWellFormed | src/lib/queries.ts:125-170 | The invitation check keeps every table keyed by its lookup column. |
| QueryLemmas.InitUserCases | src/lib/queries.ts:184-201 | An existing record keeps its identity and takes the supplied fields. A new record takes the principal's id, email, "first last" name and image, and the supplied role or else the sub-account user role. |
| QueryLemmas.InitUserIdempotent | src/lib/queries.ts:181-203 | With only a role supplied, initialising twice leaves the same state and result as initialising once. |
| QueryLemmas.InitUserPreservesWellFormed | src/lib/queries.ts:181-203 | Initialisation keeps every table keyed by its lookup column. |
| QueryLemmas.NewAgencyCreated | src/lib/queries.ts:213-255 | A new agency id with a registered company email creates the agency from the sent record. It gets the six menu entries Dashboard, Launchpad, Billing, Settings, Sub Accounts and Team, linked under `/agency/{id}`, and no sub-accounts. The company-email user is connected to it. |
| QueryLemmas.ExistingAgencyUpdated | src/lib/queries.ts:208-212 | An existing agency id keeps the menu and sub-accounts. Its columns become the stored ones merged with the sent ones. Users are untouched. |
| QueryLemmas.NewAgencyWithoutOwner | src/lib/queries.ts:207-261 | When no user has the company email, the create fails inside the caught block. The upsert returns undefined and nothing is written. |
| QueryLemmas.AgencyWritesPreserveWellFormed | src/lib/queries.ts:172-262 | The agency upsert and the agency delete keep every table keyed by its lookup column. |
| Sidebar.FindSubAccount | src/components/sidebar/index.tsx:20 | The matched sub-account is the first with the id, and it is none exactly when no sub-account has it. |
| Sidebar.PermittedSubAccounts | src/components/sidebar/index.tsx:40-45 | The listed sub-accounts are those a permission with access grants, kept in their original order. |
| Sidebar.Derive | src/components/sidebar/index.tsx:10-45 | No details give null and no agency gives undefined. Otherwise the details are the agency, or the matched sub-account, and the sub-account list is the permitted one. |
| Sidebar.LogoRule | src/components/sidebar/index.tsx:22-32 | The logo is the agency logo or the default. In a white-label agency's sub-account sidebar it is the sub-account's logo, or else the agency logo as stored, so the default appears there only if one of them is the default. |
| Sidebar.OptionsRule | src/components/sidebar/index.tsx:34-38 | The menu is the agency's for an agency sidebar. For a sub-account sidebar it is the first matching sub-account's menu, and empty when none matches. |
| Middleware.SplitAtFirst | src/middleware.ts:17 | Splitting at the leftmost occurrence of the separator: the first piece is everything before it, and the rest is the split of what follows it. |
| Middleware.SplitWithoutSeparator | src/middleware.ts:17 | A string that does not contain the separator splits into itself alone. |
| Middleware.SplitCharsJoin | src/middleware.ts:17 | Splitting on the empty string and joining the pieces with it gives the string back. |
| Middleware.SplitJoin | src/middleware.ts:17 | Joining the pieces of a split with the same separator gives the host back. |
| Middleware.SplitRepeat | src/middleware.ts:17 | A host made of k copies of the domain splits into k+1 empty pieces. |
| Middleware.JoinEmpties | src/middleware.ts:17 | Joining n empty pieces gives n-1 copies of the separator. |
| Middleware.FirstNonEmpty | src/middleware.ts:17 | `filter(Boolean)[0]` is the first non-empty piece, and none exactly when every piece is empty. |
| Middleware.SubdomainIsPrefix | src/middleware.ts:17 | When the domain first occurs in the Host header after its start, the subdomain is the text before that occurrence. |
| Middleware.SubdomainIsWholeHost | src/middleware.ts:17 | A non-empty Host header without the domain in it is the subdomain as a whole. |
| Middleware.SubdomainAbsent | src/middleware.ts:17 | There is no subdomain exactly when the Host header is missing or consists of copies of the domain text. |
| Middleware.SubdomainExample | src/middleware.ts:17 | "foo.example.com" with domain "example.com" gives the subdomain "foo.". |
| Middleware.PathWithSearchParams | src/middleware.ts:14 | The rewritten path is always the bare pathname: the misspelled length is undefined, so the query string is never appended. |
| Middleware.Route | src/middleware.ts:9-28 | A subdomain takes precedence over everything: the request is rewritten to `https://{subdomain}{pathname}`, and the middleware throws exactly when that target is not a parsable URL. Otherwise the sign-in and sign-up pages redirect to `/agency/sign-in`. A landing rewrite happens only for `/` or for `/site` on the domain. All remaining requests pass with no response. |
| Middleware.LandingPrecedence | src/middleware.ts:25-27 | Without a subdomain, `/` rewrites to `/site` for every host. `/site` rewrites exactly when the URL host equals the domain, and passes otherwise. |
| Middleware.RouteExamples | src/middleware.ts:14-27 | With the Host header equal to the domain, `/` and `/site` both go to the site. Without a Host header and with another URL host, `/` goes to the site while `/site` passes. A Host header other than the domain is taken whole as the subdomain, and the rewrite drops the query string. |
| AgencyForm.Rule | src/components/forms/testForm.tsx:58-71 | A schema rule reports exactly one issue, for its field and with its message, when its check fails, and none otherwise. |
| AgencyForm.TextDefault | src/components/forms/testForm.tsx:82-91 | A text default is the draft's value when present, else empty. |
| Middleware.PortHostThrows | src/middleware.ts:17-20 | A Host header `example.com:8080` with domain `example.com` leaves `:8080` as the subdomain, and the rewrite to `https://:8080/` throws. |
| AgencyForm.Submit | src/components/forms/testForm.tsx:106-129 | The record is sent exactly when the draft has no customer id. Afterwards the principal's user role and metadata role are the requested role. A sent record is upserted: every other agency is kept, an existing agency takes the merged columns with its menu and sub-accounts, and a new one is created with the default menu exactly when a user, possibly the principal just written, has the company email. An unsent record leaves the agencies alone. Nothing else changes: invitations, notifications and other principals' metadata roles are kept, and every other user keeps its record except that the company-email user of a sent record may be connected to the agency. |
| ProfileForm.IssueFields | src/components/forms/testForm.tsx:58-71 | The reported issues are about exactly the fields whose rule fails: name under 2, invalid email, phone under 10, address under 10, city under 3, state under 2, zip under 5, country under 2, invalid URL. |
| ProfileForm.IssuesEmpty | src/components/forms/testForm.tsx:58-71 | No issue is reported exactly when every minimum and both checks hold. |
| ProfileForm.IssuesStartWithName | src/components/forms/testForm.tsx:59 | A name shorter than 2 is the first issue, with the message "Name must be at least 3 characters". |
| ProfileForm.Validate | src/components/forms/testForm.tsx:58-71 | The input is accepted exactly when every rule holds. The values are the input with the switch defaulting to off. A rejection names exactly the failed fields. |
| ProfileForm.Defaults | src/components/forms/testForm.tsx:81-92 | Without data every field is empty and the switch is off. With data each text field shows the draft's value for that field, or empty when it is missing, and the switch is on exactly when the draft's flag is true. |
| ProfileForm.BlankFormRejected | src/components/forms/testForm.tsx:58-92 | A form opened without data is rejected, with the name issue first and the address and city among the issues. |
| ProfileForm.ReopenShowsValues | src/components/forms/testForm.tsx:81-128 | Reopening the form on the record a submit sent shows the submitted values again, and they validate to the same values. |
| ProfileForm.OnSubmit | src/components/forms/testForm.tsx:106-136 | The principal becomes an agency owner in the user table and in metadata. The record is sent exactly when there is no customer id, with the chosen id, the fresh customer id, goal 5 and no connected account. It carries the entered name, email, phone, address, city, state, zip, country, switch and logo. The sent record is upserted into the agency table as for the shared submit, and no agency changes when nothing is sent. Nothing else changes: invitations, notifications and other principals' metadata roles are kept, and every other user keeps its record except that the company-email user of a sent record may be connected to the agency. |
| ProfileForm.SubmitCreatesOwnedAgency | src/components/forms/testForm.tsx:106-129 | A first submit with the principal's own email as company email creates the agency with the default menu and no sub-accounts. The principal becomes its owner. |
| ProfileForm.SubmitWithoutOwnerCreatesNothing | src/components/forms/testForm.tsx:110-128 | When no user has the company email, the submit creates no agency. |
| AgencyDetails.IssueFields | src/components/forms/agencydetails.tsx:47-60 | The reported issues are about exactly the fields whose rule fails: name under 3, invalid email, phone under 10, address under 10, city under 3, state under 2, zip under 5, country under 3. |
| AgencyDetails.IssuesEmpty | src/components/forms/agencydetails.tsx:47-60 | No issue is reported exactly when every minimum and the email check hold. |
| AgencyDetails.Validate | src/components/forms/agencydetails.tsx:47-60 | The input is accepted exactly when every rule holds, with the switch defaulting to off. A rejection names exactly the failed fields. |
| AgencyDetails.ShortNameOrCountryRejected | src/components/forms/agencydetails.tsx:48-59 | A two-character name or country is rejected here, unlike in the profile form, and the issues name that field. |
| AgencyDetails.Defaults | src/components/forms/agencydetails.tsx:69-80 | Without data every field is empty and the switch is off. With data each text field shows the draft's value for that field, or empty when it is missing, and the switch is on exactly when the draft's flag is true. |
| AgencyDetails.MissingCountryRejected | src/components/forms/agencydetails.tsx:57-78 | The form renders no country input, so the country keeps its default. A draft without a country of at least three characters is rejected, whatever else is entered, with the country among the issues. |
| AgencyDetails.OnSubmit | src/components/forms/agencydetails.tsx:89-119 | The user's role and the metadata role become the misspelled literal `"AGNECY_OWNER"`, never the owner role. The record is sent exactly when there is no customer id. It has the chosen id, the fresh customer id, goal 5, no connected account and the entered name, email, phone, address, city, state, zip and country. Its switch and logo are always undefined. The sent record is upserted into the agency table as for the shared submit, and no agency changes when nothing is sent. Nothing else changes: invitations, notifications and other principals' metadata roles are kept, and every other user keeps its record except that the company-email user of a sent record may be connected to the agency. |
| AgencyDetails.SubmitKeepsSwitchAndLogo | src/components/forms/agencydetails.tsx:93-111 | Submitting over a stored agency keeps its white-label flag and logo, whatever the form showed, and takes the entered name. |
| AgencyDetails.HandleDeleteAgency | src/components/forms/agencydetails.tsx:120-140 | Without a draft id nothing happens. Otherwise the deleting flag goes true then false. The agency is gone afterwards, and the outcome is "deleted" exactly when it existed; a refused delete writes nothing. |
| AgencyDetails.DeleteTwice | src/components/forms/agencydetails.tsx:120-140 | A second delete of the same agency is refused and changes nothing, and the flag still goes true then false. |

## Left out

- JSX rendering, toasts, `router.refresh`, the popover and the country list: these are presentation only.
- The catch-all around both submit handlers: in the model the server actions they call never throw, so the branch that swallows a failure and skips the toast cannot be reached.
- Timestamps (`createdAt`, `updatedAt`, `new Date()`): no branch reads them.
- The identity provider's internals (`currentUser`, `updateUserMetadata`, `authMiddleware`, `publicRoutes`, the `matcher`). The principal is an input and the metadata is a map from principal id to role.
- How `redirect()` and `NextResponse` work: they are result variants. A relative target is kept as written; the runtime resolves it against the request URL.
- Middleware.Route: URL parsing is an opaque predicate, so which subdomains make the rewrite throw is not worked out here beyond the example of an empty host.
- Store.CreateUser: a clash on the user id primary key is not modelled, only the email and agency checks, because the database schema is not part of this model.
- Queries.InitUser: its create branch inserts the principal's id as the user id, and a clash on that primary key is not modelled either, for the same reason.
- Queries.UpsertAgency: uniqueness of `customerId`, schema defaults for missing columns and required-column errors are not modelled, for the same reason.
- Queries.DeleteAgency: the cascade to sub-accounts, menus, users and notifications is not modelled, because it depends on the schema.
- Queries.InitUser: the database's enum check on role values is not modelled, so a misspelled role is stored as written.
- AgencyDetails.OnSubmit: because the enum check is left out, the misspelled `"AGNECY_OWNER"` is stored and the record is upserted. Under the real schema that `initUser` call would fail, the empty catch around the submit would swallow the failure, and no agency would be upserted.
- ProfileForm.Defaults: these are the values a form starts with. When the form is opened with data, `form.reset(data)` then replaces them with the draft as given, without the `|| ""` fallbacks. A field missing from the draft becomes undefined, and the schema reports it as a missing value ("Required") rather than with its length message. The validators here see the defaults, so their messages describe a form opened without data or with every field present in the draft.
- AgencyDetails.Defaults: the same `form.reset(data)` replaces the details form's defaults, with the same consequence for fields missing from the draft.
- Queries.UserPatch carries only name, avatar and role, the fields the callers of the partial update supply.
- `getAuthUserDetails` and `getNotificationsAndUser` are thin read wrappers. The sidebar takes the loaded details as its input.
- The email and URL checks of the validation library are opaque predicates.
- Store.FindFirstOnSubAccount: the row order of `findFirst` is an input sequence, because the store does not define it. The search itself does not demand that the sequence list every user. What the store's whole-table search promises is stated under that condition (`CoversUsers`) by Store.FindFirstCoversTable and QueryLemmas.AnonymousActivityLogged.
- Concurrent requests and races are not modelled: every action is one sequential step.
- Upload configuration, the public site pages, the navigation bar and the menu components are presentation or configuration.
- ProfileForm.Validate: lengths are counted in Unicode characters, where the runtime counts UTF-16 code units. A character outside the Basic Multilingual Plane counts once here and twice there, so a short input made of such characters can be rejected here and accepted there.
- AgencyDetails.Validate: lengths are counted in Unicode characters rather than UTF-16 code units, as for the profile form.
- Middleware.SplitCharsJoin: `split("")` is modelled as one piece per Unicode character. The runtime splits by UTF-16 code unit, so a character outside the Basic Multilingual Plane gives one piece here and two there.

=== FILE: agency_details.dfy ===
/** The agency details form: its schema as a validator (the email check is an
    opaque predicate), its default values, its submit decision and its
    delete handler. */
module AgencyDetails {
  import opened Common
  import opened Store
  import opened Queries
  import opened AgencyForm

  /** The role literal the submit passes; it is not the owner role. */
  const MisspelledOwner: string := "AGNECY_OWNER"

  /** The form's fields as entered; there is no logo field. No country input
      is rendered either, so `country` always keeps its default value. */
  datatype Input = Input(
    name: string, companyEmail: string, companyPhone: string, whiteLabel: Option<bool>,
    address: string, city: string, state: string, zipCode: string, country: string)

  /** The values the schema hands to the submit handler. */
  datatype Values = Values(
    name: string, companyEmail: string, companyPhone: string, whiteLabel: bool,
    address: string, city: string, state: string, zipCode: string, country: string)

  datatype Parsed = Accepted(values: Values) | Rejected(issues: seq<Issue>)

  /** The issues of every rule, in the schema's field order. */
  function IssueList(i: Input, isEmail: string -> bool): seq<Issue> {
    Rule(Name, |i.name| >= 3, "Name must be at least 3 characters")
    + Rule(CompanyEmail, isEmail(i.companyEmail), "Invalid email address")
    + Rule(CompanyPhone, |i.companyPhone| >= 10, "Phone number must be at least 10 characters")
    + Rule(Address, |i.address| >= 10, "Address must be at least 10 characters")
    + Rule(City, |i.city| >= 3, "City must be at least 3 characters")
    + Rule(State, |i.state| >= 2, "State must be at least 2 characters")
    + Rule(ZipCode, |i.zipCode| >= 5, "Zip must be at least 5 characters")
    + Rule(Country, |i.country| >= 3, "Country must be at least 3 characters")
  }

  /** The fields whose rule the input breaks: the reference the issue list
      is checked against. The switch never fails. */
  function Failed(i: Input, isEmail: string -> bool): set<Field> {
    Mark(Name, |i.name| >= 3)
    + Mark(CompanyEmail, isEmail(i.companyEmail))
    + Mark(CompanyPhone, |i.companyPhone| >= 10)
    + Mark(Address, |i.address| >= 10)
    + Mark(City, |i.city| >= 3)
    + Mark(State, |i.state| >= 2)
    + Mark(ZipCode, |i.zipCode| >= 5)
    + Mark(Country, |i.country| >= 3)
  }

  /** The issue list is about exactly the failed fields. */
  lemma IssueFields(i: Input, isEmail: string -> bool)
    ensures FieldsOf(IssueList(i, isEmail)) == Failed(i, isEmail)
  {
    var r1 := Rule(Name, |i.name| >= 3, "Name must be at least 3 characters");
    var r2 := Rule(CompanyEmail, isEmail(i.companyEmail), "Invalid email address");
    var r3 := Rule(CompanyPhone, |i.companyPhone| >= 10, "Phone number must be at least 10 characters");
    var r4 := Rule(Address, |i.address| >= 10, "Address must be at least 10 characters");
    var r5 := Rule(City, |i.city| >= 3, "City must be at least 3 characters");
    var r6 := Rule(State, |i.state| >= 2, "State must be at least 2 characters");
    var r7 := Rule(ZipCode, |i.zipCode| >= 5, "Zip must be at least 5 characters");
    var r8 := Rule(Country, |i.country| >= 3, "Country must be at least 3 characters");
    assert IssueList(i, isEmail) == r1 + r2 + r3 + r4 + r5 + r6 + r7 + r8;
    FieldsOfEight(r1, r2, r3, r4, r5, r6, r7, r8);
  }

  /** Every rule holds exactly when the issue list is empty. */
  lemma IssuesEmpty(i: Input, isEmail: string -> bool)
    ensures IssueList(i, isEmail) == [] <==>
      && |i.name| >= 3 && isEmail(i.companyEmail) && |i.companyPhone| >= 10
      && |i.address| >= 10 && |i.city| >= 3 && |i.state| >= 2 && |i.zipCode| >= 5
      && |i.country| >= 3
  {
  }

  /** The schema: every rule is checked and all failures are reported. */
  function Validate(i: Input, isEmail: string -> bool): (r: Parsed)
    ensures r.Accepted? <==>
      && |i.name| >= 3 && isEmail(i.companyEmail) && |i.companyPhone| >= 10
      && |i.address| >= 10 && |i.city| >= 3 && |i.state| >= 2 && |i.zipCode| >= 5
      && |i.country| >= 3
    ensures r.Accepted? ==> r.values == Values(
      i.name, i.companyEmail, i.companyPhone, i.whiteLabel.GetOr(false),
      i.address, i.city, i.state, i.zipCode, i.country)
    ensures r.Rejected? ==> FieldsOf(r.issues) == Failed(i, isEmail)
  {
    var issues := IssueList(i, isEmail);
    IssueFields(i, isEmail);
    IssuesEmpty(i, isEmail);
    if issues == [] then
      Accepted(Values(i.name, i.companyEmail, i.companyPhone, i.whiteLabel.GetOr(false),
                      i.address, i.city, i.state, i.zipCode, i.country))
    else
      Rejected(issues)
  }

  /** A two-character name or country passes the profile form's schema but
      not this one. */
  lemma ShortNameOrCountryRejected(i: Input, isEmail: string -> bool)
    requires |i.name| == 2 || |i.country| == 2
    ensures Validate(i, isEmail).Rejected?
    ensures |i.name| == 2 ==> Name in FieldsOf(Validate(i, isEmail).issues)
    ensures |i.country| == 2 ==> Country in FieldsOf(Validate(i, isEmail).issues)
  {
  }

  /** The form's initial values: each field of the draft, or empty (or off)
      when the draft or the field is missing. */
  function Defaults(data: Option<Draft>): (r: Input)
    ensures data.None? ==> r == Input("", "", "", Some(false), "", "", "", "", "")
    ensures data.Some? ==>
      && r.name == data.value.name.GetOr("")
      && r.companyEmail == data.value.companyEmail.GetOr("")
      && r.companyPhone == data.value.companyPhone.GetOr("")
      && r.whiteLabel == Some(data.value.whiteLabel == Some(true))
      && r.address == data.value.address.GetOr("")
      && r.city == data.value.city.GetOr("")
      && r.state == data.value.state.GetOr("")
      && r.zipCode == data.value.zipCode.GetOr("")
      && r.country == data.value.country.GetOr("")
  {
    var d := data.GetOr(EmptyDraft);
    Input(TextDefault(d.name), TextDefault(d.companyEmail), TextDefault(d.companyPhone),
          Some(FlagDefault(d.whiteLabel)), TextDefault(d.address), TextDefault(d.city),
          TextDefault(d.state), TextDefault(d.zipCode), TextDefault(d.country))
  }

  /** With no country input rendered, the country validated is the one the
      form was opened with: a draft without a country of at least three
      characters is rejected whatever else is entered. */
  lemma MissingCountryRejected(data: Option<Draft>, i: Input, isEmail: string -> bool)
    requires i.country == Defaults(data).country
    requires data.None? || |data.value.country.GetOr("")| < 3
    ensures Validate(i, isEmail).Rejected?
    ensures Country in FieldsOf(Validate(i, isEmail).issues)
  {
  }

  /** The record the submit sends. The switch is read from a misspelled
      property and the logo from a field the schema lacks, so both are
      undefined whatever was entered. */
  function Record(data: Option<Draft>, v: Values, freshId: Id, freshCustomerId: string): AgencyInfo {
    AgencyInfo(ChosenId(data, freshId), freshCustomerId, v.name, v.companyEmail, v.companyPhone,
               None, v.address, v.city, v.zipCode, v.state, v.country, None, 5, "")
  }

  /** The submit: the principal's user gets the misspelled owner role, then
      the record is upserted unless the draft has a customer id. */
  function OnSubmit(w: World, principal: Option<Principal>, data: Option<Draft>, v: Values,
                    freshId: Id, freshCustomerId: string): (r: Submission)
    ensures r.sent.Some? <==> !HasCustomer(data)
    ensures r.sent.Some? ==>
      UpsertedInto(w.agencies, r.world.agencies, r.sent.value, KnownAfterInit(w, principal, v.companyEmail))
    ensures r.sent.None? ==> r.world.agencies == w.agencies
    ensures r.world.invitations == w.invitations && r.world.notifications == w.notifications
    ensures r.world.metadataRole == (if principal.Some? then w.metadataRole[principal.value.id := MisspelledOwner] else w.metadataRole)
    ensures forall e | e in w.users && (principal.None? || e != principal.value.email) ::
      && e in r.world.users
      && r.world.users[e] == w.users[e].(agencyId := r.world.users[e].agencyId)
      && (r.world.users[e].agencyId != w.users[e].agencyId ==> r.sent.Some? && e == v.companyEmail)
    ensures r.sent.Some? ==>
      && r.sent.value.id == ChosenId(data, freshId)
      && r.sent.value.whiteLabel.None?
      && r.sent.value.agencyLogo.None?
      && r.sent.value.customerId == freshCustomerId
      && r.sent.value.goal == 5
      && r.sent.value.name == v.name
      && r.sent.value.companyEmail == v.companyEmail
      && r.sent.value.companyPhone == v.companyPhone
      && r.sent.value.address == v.address
      && r.sent.value.city == v.city
      && r.sent.value.state == v.state
      && r.sent.value.zipCode == v.zipCode
      && r.sent.value.country == v.country
      && r.sent.value.connectAccountId == ""
    ensures principal.Some? ==>
      && principal.value.email in r.world.users
      && r.world.users[principal.value.email].role == MisspelledOwner
      && r.world.users[principal.value.email].role != AgencyOwner
      && principal.value.id in r.world.metadataRole
      && r.world.metadataRole[principal.value.id] == MisspelledOwner
  {
    Submit(w, principal, data, MisspelledOwner, Record(data, v, freshId, freshCustomerId))
  }

  /** Submitting over a stored agency leaves its switch and logo as they were,
      whatever the form showed. */
  lemma SubmitKeepsSwitchAndLogo(w: World, principal: Option<Principal>, data: Option<Draft>, v: Values,
                                 freshId: Id, freshCustomerId: string)
    requires !HasCustomer(data) && v.companyEmail != ""
    requires ChosenId(data, freshId) in w.agencies
    ensures var id := ChosenId(data, freshId);
      var r := OnSubmit(w, principal, data, v, freshId, freshCustomerId);
      && id in r.world.agencies
      && r.world.agencies[id].info.whiteLabel == w.agencies[id].info.whiteLabel
      && r.world.agencies[id].info.agencyLogo == w.agencies[id].info.agencyLogo
      && r.world.agencies[id].info.name == v.name
  {
  }

  /** How a delete ended: nothing to delete, deleted, or refused. */
  datatype DeleteOutcome = Skipped | Deleted | Refused

  /** The values the deleting flag took, in order, the state afterwards, and
      how it ended. */
  datatype DeleteRun = DeleteRun(flagTrace: seq<bool>, world: World, outcome: DeleteOutcome)

  /** The delete handler: nothing without a draft id; otherwise the flag is
      raised, the agency deleted (a failure is caught) and the flag lowered. */
  function HandleDeleteAgency(w: World, data: Option<Draft>): (r: DeleteRun)
    ensures !(data.Some? && Truthy(data.value.id)) ==> r == DeleteRun([], w, Skipped)
    ensures data.Some? && Truthy(data.value.id) ==>
      && r.flagTrace == [true, false]
      && (r.outcome == Deleted <==> data.value.id.value in w.agencies)
      && (r.outcome == Deleted ==> r.world.agencies == w.agencies - {data.value.id.value})
      && (r.outcome != Deleted ==> r.outcome == Refused && r.world == w)
      && data.value.id.value !in r.world.agencies
  {
    if !(data.Some? && Truthy(data.value.id)) then DeleteRun([], w, Skipped)
    else
      var step := DeleteAgency(w, data.value.id.value);
      DeleteRun([true, false], step.world, if step.res.Ok? then Deleted else Refused)
  }

  /** Deleting the same agency twice: the second run fails and changes
      nothing. */
  lemma DeleteTwice(w: World, data: Option<Draft>)
    requires data.Some? && Truthy(data.value.id)
    ensures var first := HandleDeleteAgency(w, data);
      var second := HandleDeleteAgency(first.world, data);
      && second.outcome == Refused && second.world == first.world
      && second.flagTrace == [true, false]
  {
  }
}

=== FILE: agency_form.dfy ===
/** What the two agency forms share: the validation issues a schema reports,
    the partial agency a form is opened with, and the submit flow that
    initialises the user and then, for an agency without a customer id,
    upserts the agency record the form built. */
module AgencyForm {
  import opened Common
  import opened Store
  import opened Queries

  datatype Field =
    | Name | CompanyEmail | CompanyPhone | WhiteLabel | Address
    | City | State | ZipCode | Country | AgencyLogo

  /** One failed rule: the field and the message shown for it. */
  datatype Issue = Issue(field: Field, message: string)

  /** The fields the issues are about. */
  function FieldsOf(issues: seq<Issue>): set<Field> {
    set k | 0 <= k < |issues| :: issues[k].field
  }

  /** Issues concatenated are about the fields either part is about. */
  lemma FieldsOfAppend(a: seq<Issue>, b: seq<Issue>)
    ensures FieldsOf(a + b) == FieldsOf(a) + FieldsOf(b)
  {
    forall f | f in FieldsOf(a + b) ensures f in FieldsOf(a) + FieldsOf(b) {
      var k :| 0 <= k < |a + b| && (a + b)[k].field == f;
      if k < |a| {
        assert a[k].field == f;
      } else {
        assert b[k - |a|].field == f;
      }
    }
    forall f | f in FieldsOf(a) ensures f in FieldsOf(a + b) {
      var k :| 0 <= k < |a| && a[k].field == f;
      assert (a + b)[k] == a[k];
    }
    forall f | f in FieldsOf(b) ensures f in FieldsOf(a + b) {
      var k :| 0 <= k < |b| && b[k].field == f;
      assert (a + b)[|a| + k] == b[k];
    }
  }

  /** The fields of eight concatenated issue lists. */
  lemma FieldsOfEight(r1: seq<Issue>, r2: seq<Issue>, r3: seq<Issue>, r4: seq<Issue>,
                      r5: seq<Issue>, r6: seq<Issue>, r7: seq<Issue>, r8: seq<Issue>)
    ensures FieldsOf(r1 + r2 + r3 + r4 + r5 + r6 + r7 + r8) ==
      FieldsOf(r1) + FieldsOf(r2) + FieldsOf(r3) + FieldsOf(r4)
      + FieldsOf(r5) + FieldsOf(r6) + FieldsOf(r7) + FieldsOf(r8)
  {
    FieldsOfAppend(r1, r2);
    FieldsOfAppend(r1 + r2, r3);
    FieldsOfAppend(r1 + r2 + r3, r4);
    FieldsOfAppend(r1 + r2 + r3 + r4, r5);
    FieldsOfAppend(r1 + r2 + r3 + r4 + r5, r6);
    FieldsOfAppend(r1 + r2 + r3 + r4 + r5 + r6, r7);
    FieldsOfAppend(r1 + r2 + r3 + r4 + r5 + r6 + r7, r8);
  }

  /** The field a rule flags: itself when its check fails, else none. */
  function Mark(field: Field, ok: bool): set<Field> {
    if ok then {} else {field}
  }

  /** One rule of a schema: an issue for `field`, with its message,
      exactly when the check `ok` fails. */
  function Rule(field: Field, ok: bool, message: string): (r: seq<Issue>)
    ensures r == [] <==> ok
    ensures FieldsOf(r) == Mark(field, ok)
    ensures !ok ==> r == [Issue(field, message)]
  {
    if ok then []
    else
      var r := [Issue(field, message)];
      assert r[0].field == field;
      r
  }

  /** The partial agency record a form is opened with; every field may be
      missing. */
  datatype Draft = Draft(
    id: Option<Id>,
    customerId: Option<string>,
    name: Option<string>,
    companyEmail: Option<string>,
    companyPhone: Option<string>,
    whiteLabel: Option<bool>,
    address: Option<string>,
    city: Option<string>,
    zipCode: Option<string>,
    state: Option<string>,
    country: Option<string>,
    agencyLogo: Option<string>)

  /** A draft with nothing filled in: `data?.field` reads through it when the
      form is opened without data. */
  const EmptyDraft: Draft := Draft(None, None, None, None, None, None, None, None, None, None, None, None)

  /** The draft a stored agency reopens the form with. */
  function DraftOf(info: AgencyInfo): Draft {
    Draft(Some(info.id), Some(info.customerId), Some(info.name), Some(info.companyEmail),
          Some(info.companyPhone), info.whiteLabel, Some(info.address), Some(info.city),
          Some(info.zipCode), Some(info.state), Some(info.country), info.agencyLogo)
  }

  /** `data?.field || ""` */
  function TextDefault(field: Option<string>): (r: string)
    ensures field.Some? ==> r == field.value
    ensures field.None? ==> r == ""
  {
    OrElse(field, "")
  }

  /** `data?.whiteLabel || false` */
  function FlagDefault(field: Option<bool>): (r: bool)
    ensures r <==> field == Some(true)
  {
    field == Some(true)
  }

  /** The draft already has a customer id, so the submit skips the upsert. */
  predicate HasCustomer(data: Option<Draft>) {
    data.Some? && Truthy(data.value.customerId)
  }

  /** `data?.id ? data.id : v4()`, with the generated id passed in. */
  function ChosenId(data: Option<Draft>, freshId: Id): (r: Id)
    ensures data.Some? && Truthy(data.value.id) ==> r == data.value.id.value
    ensures !(data.Some? && Truthy(data.value.id)) ==> r == freshId
  {
    if data.Some? && Truthy(data.value.id) then data.value.id.value else freshId
  }

  /** What upserting `record` does to the agency table, told independently
      of the store's code: every other agency is kept as it was; with no
      company email nothing changes; an existing agency takes the merged
      columns and keeps its menu and sub-accounts; a new one is created with
      the default menu and no sub-accounts exactly when its company email
      belongs to a user (`ownerKnown`). */
  predicate UpsertedInto(before: map<Id, Agency>, after: map<Id, Agency>, record: AgencyInfo, ownerKnown: bool) {
    && after.Keys - {record.id} == before.Keys - {record.id}
    && (forall a | a in before && a != record.id :: a in after && after[a] == before[a])
    && (record.companyEmail == "" ==> after == before)
    && (record.companyEmail != "" && record.id in before ==>
          && record.id in after
          && after[record.id].info == MergeInfo(before[record.id].info, record)
          && after[record.id].sidebarOptions == before[record.id].sidebarOptions
          && after[record.id].subAccounts == before[record.id].subAccounts)
    && (record.companyEmail != "" && record.id !in before ==>
          && (record.id in after <==> ownerKnown)
          && (ownerKnown ==> after[record.id] == Agency(record, DefaultSidebarOptions(record.id), [])))
  }

  /** Whether a user has `email` once the principal's record is written. */
  predicate KnownAfterInit(w: World, principal: Option<Principal>, email: string) {
    email in w.users || (principal.Some? && principal.value.email == email)
  }

  /** What a submit did: the record handed to the agency upsert, if it ran,
      and the state afterwards. */
  datatype Submission = Submission(sent: Option<AgencyInfo>, world: World)

  /** The submit flow both forms share: initialise the principal's user with
      `role`, then upsert `record` unless the draft has a customer id. The
      user's role and the metadata role end up as `role`; agencies change only
      through the upsert. */
  function Submit(w: World, principal: Option<Principal>, data: Option<Draft>, role: string, record: AgencyInfo): (r: Submission)
    requires role != ""
    ensures r.sent.Some? <==> !HasCustomer(data)
    ensures r.sent.Some? ==> r.sent.value == record
    ensures r.sent.Some? ==>
      UpsertedInto(w.agencies, r.world.agencies, record, KnownAfterInit(w, principal, record.companyEmail))
    ensures r.world.invitations == w.invitations && r.world.notifications == w.notifications
    ensures r.world.metadataRole == (if principal.Some? then w.metadataRole[principal.value.id := role] else w.metadataRole)
    ensures forall e | e in w.users && (principal.None? || e != principal.value.email) ::
      && e in r.world.users
      && r.world.users[e] == w.users[e].(agencyId := r.world.users[e].agencyId)
      && (r.world.users[e].agencyId != w.users[e].agencyId ==> r.sent.Some? && e == record.companyEmail)
    ensures HasCustomer(data) ==> r.world.agencies == w.agencies
    ensures principal.Some? ==>
      && principal.value.email in r.world.users
      && r.world.users[principal.value.email].role == role
      && principal.value.id in r.world.metadataRole
      && r.world.metadataRole[principal.value.id] == role
    ensures principal.None? && HasCustomer(data) ==> r.world == w
  {
    var init := InitUser(w, principal, UserPatch(None, None, Some(role)));
    if HasCustomer(data) then Submission(None, init.world)
    else Submission(Some(record), UpsertAgency(init.world, record).world)
  }
}

=== FILE: common.dfy ===
/** Small value types shared by every module: an optional value, and the
    JavaScript coercions (truthiness, `||` fallback, template rendering of a
    possibly-missing value) that the application's branching relies on. */
module Common {

  /** A value that may be missing (`null` / `undefined` in the application). */
  datatype Option<+T> = None | Some(value: T) {

    /** The wrapped value, or `default` when missing. */
    function GetOr(default: T): T {
      match this
      case Some(v) => v
      case None => default
    }
  }

  /** Identifiers (user, agency, sub-account, principal) are plain strings. */
  type Id = string

  /** JavaScript truthiness of an optional string: present and non-empty. */
  predicate Truthy(s: Option<string>) {
    s.Some? && s.value != ""
  }

  /** `s || fallback` for an optional string. */
  function OrElse(s: Option<string>, fallback: string): (r: string)
    ensures Truthy(s) ==> r == s.value
    ensures !Truthy(s) ==> r == fallback
  {
    if Truthy(s) then s.value else fallback
  }

  /** How a template literal renders an optional string: `null` for a missing value. */
  function ShowOrNull(s: Option<string>): string {
    match s
    case Some(v) => v
    case None => "null"
  }
}

=== FILE: middleware.dfy ===
/** The routing decision taken after authentication on every request: a
    rewrite to the custom subdomain, a redirect of the bare sign-in pages, a
    rewrite of the landing pages to the public site, or no response. The
    subdomain is found by splitting the Host header on the configured domain,
    with the string splitting of the JavaScript runtime modelled here. */
module Middleware {
  import opened Common

  /** `s.split(sep)` for a non-empty separator: the pieces between the
      occurrences of `sep`, found left to right without overlap. */
  function SplitOn(s: string, sep: string): (r: seq<string>)
    requires sep != ""
    ensures |r| >= 1
    decreases |s|
  {
    if |s| < |sep| then [s]
    else if s[..|sep|] == sep then [""] + SplitOn(s[|sep|..], sep)
    else
      var rest := SplitOn(s[1..], sep);
      [[s[0]] + rest[0]] + rest[1..]
  }

  /** `s.split("")`: one piece per character. */
  function SplitChars(s: string): (r: seq<string>)
    ensures |r| == |s|
    ensures forall i | 0 <= i < |r| :: r[i] == [s[i]]
  {
    seq(|s|, i requires 0 <= i < |s| => [s[i]])
  }

  function JsSplit(s: string, sep: string): seq<string> {
    if sep == "" then SplitChars(s) else SplitOn(s, sep)
  }

  /** `pieces.join(sep)` */
  function Join(pieces: seq<string>, sep: string): string {
    if pieces == [] then ""
    else if |pieces| == 1 then pieces[0]
    else pieces[0] + sep + Join(pieces[1..], sep)
  }

  /** `sep` written `k` times. */
  function Repeat(sep: string, k: nat): string {
    if k == 0 then "" else sep + Repeat(sep, k - 1)
  }

  /** `sep` occurs in `s` starting at index `k`. */
  predicate OccursAt(s: string, sep: string, k: nat) {
    k + |sep| <= |s| && s[k..k + |sep|] == sep
  }

  /** Dropping the first character shifts every occurrence one place left. */
  lemma OccursAtTail(s: string, sep: string, j: nat)
    requires |s| > 0
    ensures OccursAt(s[1..], sep, j) <==> OccursAt(s, sep, j + 1)
  {
    if j + 1 + |sep| <= |s| {
      assert s[1..][j..j + |sep|] == s[j + 1..j + 1 + |sep|];
    }
  }

  /** When the leftmost occurrence of the separator starts at `k`, the first
      piece is everything before it and the rest is the split of what follows
      it. */
  lemma {:induction false} SplitAtFirst(s: string, sep: string, k: nat)
    requires sep != "" && OccursAt(s, sep, k)
    requires forall j: nat | j < k :: !OccursAt(s, sep, j)
    ensures SplitOn(s, sep) == [s[..k]] + SplitOn(s[k + |sep|..], sep)
    decreases k
  {
    if k == 0 {
      assert s[..|sep|] == sep;
    } else {
      assert s[..|sep|] != sep by {
        assert !OccursAt(s, sep, 0);
      }
      var t := s[1..];
      OccursAtTail(s, sep, k - 1);
      forall j: nat | j < k - 1 ensures !OccursAt(t, sep, j) {
        OccursAtTail(s, sep, j);
      }
      SplitAtFirst(t, sep, k - 1);
      var rest := SplitOn(t, sep);
      assert rest[0] == t[..k - 1];
      assert rest[1..] == SplitOn(s[k + |sep|..], sep) by {
        assert t[k - 1 + |sep|..] == s[k + |sep|..];
      }
      assert [s[0]] + t[..k - 1] == s[..k];
    }
  }

  /** A string in which the separator never occurs splits into itself. */
  lemma {:induction false} SplitWithoutSeparator(s: string, sep: string)
    requires sep != ""
    requires forall j: nat :: !OccursAt(s, sep, j)
    ensures SplitOn(s, sep) == [s]
    decreases |s|
  {
    if |s| >= |sep| {
      assert s[..|sep|] != sep by {
        assert !OccursAt(s, sep, 0);
      }
      var t := s[1..];
      forall j: nat ensures !OccursAt(t, sep, j) {
        OccursAtTail(s, sep, j);
      }
      SplitWithoutSeparator(t, sep);
      assert [s[0]] + t == s;
    }
  }

  /** Splitting on the empty string and joining with it gives the string back. */
  lemma {:induction false} SplitCharsJoin(s: string)
    ensures Join(SplitChars(s), "") == s
    decreases |s|
  {
    if |s| > 1 {
      SplitCharsJoin(s[1..]);
      assert SplitChars(s)[1..] == SplitChars(s[1..]);
      assert s == [s[0]] + s[1..];
    }
  }

  /** Joining after gluing `c` to the first piece is gluing `c` to the join. */
  lemma JoinGlueFirst(c: string, pieces: seq<string>, sep: string)
    requires |pieces| >= 1
    ensures Join([c + pieces[0]] + pieces[1..], sep) == c + Join(pieces, sep)
  {
  }

  /** Joining with an empty first piece starts with the separator. */
  lemma JoinEmptyFirst(pieces: seq<string>, sep: string)
    requires |pieces| >= 1
    ensures Join([""] + pieces, sep) == sep + Join(pieces, sep)
  {
  }

  /** Splitting and joining again on the same separator gives the string back. */
  lemma {:induction false} SplitJoin(s: string, sep: string)
    requires sep != ""
    ensures Join(SplitOn(s, sep), sep) == s
    decreases |s|
  {
    if |s| < |sep| {
    } else if s[..|sep|] == sep {
      SplitJoin(s[|sep|..], sep);
      JoinEmptyFirst(SplitOn(s[|sep|..], sep), sep);
      assert s == s[..|sep|] + s[|sep|..];
    } else {
      SplitJoin(s[1..], sep);
      JoinGlueFirst([s[0]], SplitOn(s[1..], sep), sep);
      assert s == [s[0]] + s[1..];
    }
  }

  /** A separator repeated `k` times splits into `k + 1` empty pieces. */
  lemma {:induction false} SplitRepeat(sep: string, k: nat)
    requires sep != ""
    ensures SplitOn(Repeat(sep, k), sep) == seq(k + 1, _ => "")
  {
    if k > 0 {
      SplitRepeat(sep, k - 1);
      var s := Repeat(sep, k);
      assert s[..|sep|] == sep;
      assert s[|sep|..] == Repeat(sep, k - 1);
      assert [""] + seq(k, _ => "") == seq(k + 1, _ => "");
    }
  }

  /** Joining only empty pieces leaves the separators alone. */
  lemma {:induction false} JoinEmpties(pieces: seq<string>, sep: string)
    requires |pieces| >= 1
    requires forall i | 0 <= i < |pieces| :: pieces[i] == ""
    ensures Join(pieces, sep) == Repeat(sep, |pieces| - 1)
    decreases |pieces|
  {
    if |pieces| > 1 {
      JoinEmpties(pieces[1..], sep);
      assert pieces[0] == "";
    }
  }

  /** The empty string repeated is empty. */
  lemma {:induction false} RepeatEmpty(k: nat)
    ensures Repeat("", k) == ""
  {
    if k > 0 {
      RepeatEmpty(k - 1);
    }
  }

  /** `pieces.filter(Boolean)[0]`: the first non-empty piece. */
  function FirstNonEmpty(pieces: seq<string>): (r: Option<string>)
    ensures r.None? <==> forall i | 0 <= i < |pieces| :: pieces[i] == ""
    ensures r.Some? ==> exists i | 0 <= i < |pieces| ::
      pieces[i] == r.value && r.value != "" && forall j | 0 <= j < i :: pieces[j] == ""
  {
    if pieces == [] then None
    else if pieces[0] != "" then Some(pieces[0])
    else
      var rest := FirstNonEmpty(pieces[1..]);
      assert forall i | 1 <= i < |pieces| :: pieces[i] == pieces[1..][i - 1];
      if rest.Some? then
        var k :| 0 <= k < |pieces[1..]| && pieces[1..][k] == rest.value && rest.value != ""
                 && forall j | 0 <= j < k :: pieces[1..][j] == "";
        assert pieces[k + 1] == rest.value;
        rest
      else rest
  }

  /** How the template literal renders the configured domain: an unset
      variable reads as the text `undefined`. */
  function DomainText(domain: Option<string>): string {
    match domain
    case Some(d) => d
    case None => "undefined"
  }

  /** The custom subdomain: the first non-empty piece of the Host header split
      on the domain; none without a Host header. */
  function CustomSubdomain(host: Option<string>, domain: Option<string>): (r: Option<string>)
    ensures host.None? ==> r.None?
    ensures r.Some? ==> r.value != ""
  {
    match host
    case None => None
    case Some(h) => FirstNonEmpty(JsSplit(h, DomainText(domain)))
  }

  /** There is no custom subdomain exactly when the Host header is missing or
      consists of nothing but copies of the domain text. */
  lemma SubdomainAbsent(host: Option<string>, domain: Option<string>)
    ensures CustomSubdomain(host, domain).None? <==>
      host.None? || exists k: nat :: host.value == Repeat(DomainText(domain), k)
  {
    if host.Some? {
      var h, d := host.value, DomainText(domain);
      if d == "" {
        if h == "" {
          RepeatEmpty(0);
        } else {
          assert JsSplit(h, d)[0] == [h[0]];
          forall k: nat ensures h != Repeat(d, k) {
            RepeatEmpty(k);
          }
        }
      } else {
        var pieces := SplitOn(h, d);
        if exists k: nat :: h == Repeat(d, k) {
          var k: nat :| h == Repeat(d, k);
          SplitRepeat(d, k);
          assert forall i | 0 <= i < |pieces| :: pieces[i] == "";
        }
        if CustomSubdomain(host, domain).None? {
          SplitJoin(h, d);
          JoinEmpties(pieces, d);
          assert h == Repeat(d, |pieces| - 1);
        }
      }
    }
  }

  /** One character that starts no occurrence of the separator joins the
      first piece. */
  lemma SplitPastChar(s: string, sep: string, first: string, tail: string, tailFirst: string)
    requires sep != "" && |s| >= |sep| && s[..|sep|][0] != sep[0]
    requires s[1..] == tail && SplitOn(tail, sep) == [tailFirst, ""]
    requires first == [s[0]] + tailFirst
    ensures SplitOn(s, sep) == [first, ""]
  {
  }

  /** A host one label deep under the domain yields that label with its dot. */
  lemma SubdomainExample()
    ensures CustomSubdomain(Some("foo.example.com"), Some("example.com")) == Some("foo.")
  {
    var d := "example.com";
    assert "example.com"[11..] == "";
    assert SplitOn("", d) == [""];
    assert SplitOn("example.com", d) == ["", ""];
    SplitPastChar(".example.com", d, ".", "example.com", "");
    SplitPastChar("o.example.com", d, "o.", ".example.com", ".");
    SplitPastChar("oo.example.com", d, "oo.", "o.example.com", "o.");
    SplitPastChar("foo.example.com", d, "foo.", "oo.example.com", "oo.");
  }

  /** When the domain first occurs in the Host header past its start, the
      subdomain is the text before that occurrence. */
  lemma SubdomainIsPrefix(host: string, domain: Option<string>, k: nat)
    requires DomainText(domain) != "" && 0 < k
    requires OccursAt(host, DomainText(domain), k)
    requires forall j: nat | j < k :: !OccursAt(host, DomainText(domain), j)
    ensures CustomSubdomain(Some(host), domain) == Some(host[..k])
  {
    SplitAtFirst(host, DomainText(domain), k);
  }

  /** A non-empty Host header in which the domain never occurs is itself the
      subdomain. */
  lemma SubdomainIsWholeHost(host: string, domain: Option<string>)
    requires DomainText(domain) != "" && host != ""
    requires forall j: nat :: !OccursAt(host, DomainText(domain), j)
    ensures CustomSubdomain(Some(host), domain) == Some(host)
  {
    SplitWithoutSeparator(host, DomainText(domain));
  }

  /** Reading the misspelled `lenght` property of the query string gives
      `undefined`. */
  function MisspelledLength(search: string): Option<int> {
    None
  }

  /** `v > 0` in JavaScript, where `undefined > 0` is false. */
  predicate GreaterThanZero(v: Option<int>) {
    match v
    case Some(n) => n > 0
    case None => false
  }

  /** The path with the query string appended only when its `lenght` is
      positive, which it never is: the query string is always dropped. */
  function PathWithSearchParams(pathname: string, search: string): (r: string)
    ensures r == pathname
  {
    pathname + (if GreaterThanZero(MisspelledLength(search)) then "?" + search else "")
  }

  /** The request fields the decision reads. */
  datatype Request = Request(pathname: string, search: string, hostHeader: Option<string>, urlHost: string)

  /** A rewrite keeps the browser's URL, a redirect changes it; `Pass` lets
      the request through with no response. A relative target is kept as
      written; the runtime resolves it against the request URL. `Throws` is
      the middleware failing because the absolute rewrite target is not a
      URL the runtime can parse (`new URL` throws). */
  datatype Response = Rewrite(target: string) | Redirect(target: string) | Pass | Throws

  /** The subdomain rewrite target, `https://{subdomain}{path}`. */
  function SubdomainTarget(sub: string, req: Request): string {
    "https://" + sub + PathWithSearchParams(req.pathname, req.search)
  }

  /** The decision. `&&` binds tighter than `||` in the landing-page test, so
      `/` is rewritten for every host and `/site` only on the domain itself.
      `validUrl` is the runtime's URL parser accepting an absolute URL: a
      subdomain that leaves the host empty (a Host header `example.com:8080`
      yields `:8080`) makes the rewrite throw. */
  function Route(req: Request, domain: Option<string>, validUrl: string -> bool): (r: Response)
    ensures CustomSubdomain(req.hostHeader, domain).Some? && validUrl(SubdomainTarget(CustomSubdomain(req.hostHeader, domain).value, req)) ==>
      r == Rewrite("https://" + CustomSubdomain(req.hostHeader, domain).value + req.pathname)
    ensures r.Throws? <==>
      CustomSubdomain(req.hostHeader, domain).Some? && !validUrl(SubdomainTarget(CustomSubdomain(req.hostHeader, domain).value, req))
    ensures r.Redirect? <==>
      CustomSubdomain(req.hostHeader, domain).None? && req.pathname in {"/sign-in", "/sign-up"}
    ensures r.Redirect? ==> r.target == "/agency/sign-in"
    ensures r == Rewrite("/site") && CustomSubdomain(req.hostHeader, domain).None? ==>
      req.pathname == "/" || (req.pathname == "/site" && domain == Some(req.urlHost))
    ensures r.Pass? <==>
      && CustomSubdomain(req.hostHeader, domain).None?
      && req.pathname !in {"/sign-in", "/sign-up", "/"}
      && !(req.pathname == "/site" && domain == Some(req.urlHost))
  {
    var sub := CustomSubdomain(req.hostHeader, domain);
    if sub.Some? then
      var target := SubdomainTarget(sub.value, req);
      if validUrl(target) then Rewrite(target) else Throws
    else if req.pathname == "/sign-in" || req.pathname == "/sign-up" then Redirect("/agency/sign-in")
    else if req.pathname == "/" || (req.pathname == "/site" && domain == Some(req.urlHost)) then Rewrite("/site")
    else Pass
  }

  /** Without a subdomain, `/` goes to the site whatever the URL host, while
      `/site` goes there only when the URL host is the configured domain. */
  lemma LandingPrecedence(req: Request, domain: Option<string>, validUrl: string -> bool)
    requires CustomSubdomain(req.hostHeader, domain).None?
    ensures req.pathname == "/" ==> Route(req, domain, validUrl) == Rewrite("/site")
    ensures req.pathname == "/site" ==>
      (Route(req, domain, validUrl) == Rewrite("/site") <==> domain == Some(req.urlHost))
    ensures req.pathname == "/site" && domain != Some(req.urlHost) ==> Route(req, domain, validUrl) == Pass
  {
  }

  /** Concretely: a request to the domain itself reaches the site from both
      landing paths; a request without a Host header reaches it from `/` but
      not from `/site` when its URL host is another; and a Host header
      other than the domain is taken whole as the subdomain, losing the query
      string. */
  lemma RouteExamples(validUrl: string -> bool)
    requires validUrl("https://other.org/page")
    ensures Route(Request("/", "", Some("example.com"), "example.com"), Some("example.com"), validUrl) == Rewrite("/site")
    ensures Route(Request("/site", "", Some("example.com"), "example.com"), Some("example.com"), validUrl) == Rewrite("/site")
    ensures Route(Request("/", "", None, "other.org"), Some("example.com"), validUrl) == Rewrite("/site")
    ensures Route(Request("/site", "", None, "other.org"), Some("example.com"), validUrl) == Pass
    ensures Route(Request("/page", "a=1", Some("other.org"), "other.org"), Some("example.com"), validUrl) == Rewrite("https://other.org/page")
  {
    var d := "example.com";
    assert "example.com"[11..] == "";
    assert SplitOn("", d) == [""];
    assert SplitOn("example.com", d) == ["", ""];
    assert SplitOn("other.org", d) == ["other.org"];
    assert CustomSubdomain(Some("other.org"), Some(d)) == Some("other.org");
    assert "https://" + "other.org" + "/page" == "https://other.org/page";
  }

  /** A Host header with a port after the domain leaves only `:8080` as the
      subdomain; the rewrite target then has no host and the middleware
      throws. */
  lemma PortHostThrows(validUrl: string -> bool)
    requires !validUrl("https://:8080/")
    ensures CustomSubdomain(Some("example.com:8080"), Some("example.com")) == Some(":8080")
    ensures Route(Request("/", "", Some("example.com:8080"), "example.com"), Some("example.com"), validUrl) == Throws
  {
    var d := "example.com";
    assert "example.com:8080"[..11] == d;
    assert "example.com:8080"[11..] == ":8080";
    assert SplitOn(":8080", d) == [":8080"];
    assert SplitOn("example.com:8080", d) == ["", ":8080"];
    assert SubdomainTarget(":8080", Request("/", "", Some("example.com:8080"), "example.com")) == "https://:8080/";
  }
}

=== FILE: queries.dfy ===
/** The server actions of `src/lib/queries.ts` as sequential steps over the
    abstract stores. The authenticated principal, the store's row order and
    fresh values are parameters. Each action performs its writes one after the
    other, with no transaction around them, so a later throw keeps the earlier
    writes. */
module Queries {
  import opened Common
  import opened Store

  /** What the invitation check hands back to its page: a redirect to sign in,
      or the agency the principal belongs to (possibly none). */
  datatype Membership = RedirectTo(path: string) | AgencyOf(agencyId: Option<Id>)

  /** The fields of a partial user record the callers can supply. */
  datatype UserPatch = UserPatch(name: Option<string>, avatarUrl: Option<string>, role: Option<string>)

  /** What the agency upsert returns: `null` when no company email was given,
      `undefined` when the store call failed, else the stored agency. */
  datatype AgencyUpsert = NullResult | UndefinedResult | Saved(agency: Agency)

  /** The role written into metadata: the role, or the sub-account user role
      when it is empty. */
  function MetadataRoleFor(role: string): (r: string)
    ensures r != ""
    ensures role != "" ==> r == role
    ensures role == "" ==> r == SubaccountUser
  {
    OrElse(Some(role), SubaccountUser)
  }

  /** Team-member creation: an invitation carrying the owner role is ignored
      (returns nothing, writes nothing); any other record is inserted as is. */
  function CreateTeamUser(w: World, agencyId: Id, user: User): (r: Step<Option<User>>)
    ensures user.role == AgencyOwner ==> r == Step(Ok(None), w)
    ensures user.role != AgencyOwner && r.res.Ok? ==>
      r.res.value == Some(user) && r.world == w.(users := w.users[user.email := user])
    ensures user.role != AgencyOwner ==>
      (r.res.Ok? <==> user.email !in w.users && (user.agencyId.None? || user.agencyId.value in w.agencies))
    ensures r.res.Throw? ==> r.world == w
  {
    if user.role == AgencyOwner then Step(Ok(None), w)
    else
      var created := CreateUser(w, user);
      match created.res
      case Ok(u) => Step(Ok(Some(u)), created.world)
      case Throw(e) => Step(Throw(e), created.world)
  }

  /** The user an activity entry is attributed to: the principal's own record
      when signed in, else the first user of an agency owning the sub-account. */
  function ActivityUser(w: World, principal: Option<Principal>, scan: seq<string>, subaccountId: Option<Id>): Option<User> {
    match principal
    case Some(p) => FindUser(w, p.email)
    case None => FindFirstOnSubAccount(w, scan, subaccountId)
  }

  /** Appends "<user name> <description>" to the notifications, connected to the
      given agency and, when one is given, to the sub-account. The sub-account
      is looked up when the agency id is missing, but the lookup's result is
      never used, so the entry is always connected to the agency id as passed. */
  function SaveActivityLogsNotification(
    w: World, principal: Option<Principal>, scan: seq<string>,
    agencyId: Option<Id>, description: string, subaccountId: Option<Id>): (r: Step<()>)
    ensures r.world.users == w.users && r.world.invitations == w.invitations
    ensures r.world.agencies == w.agencies && r.world.metadataRole == w.metadataRole
    ensures ActivityUser(w, principal, scan, subaccountId).None? ==> r == Step(Ok(()), w)
    ensures ActivityUser(w, principal, scan, subaccountId).Some? && !Truthy(agencyId) && !Truthy(subaccountId) ==>
      r == Step(Throw(AgencyOrSubaccountRequired), w)
    ensures r.res.Throw? ==> r.world == w
    ensures r.world == w || |r.world.notifications| == |w.notifications| + 1
    ensures r.res.Ok? && r.world != w <==>
      && ActivityUser(w, principal, scan, subaccountId).Some?
      && (Truthy(agencyId) || Truthy(subaccountId))
      && agencyId.Some? && agencyId.value in w.agencies
      && (Truthy(subaccountId) ==> SubAccountExists(w, subaccountId.value))
    ensures r.res == Throw(ConnectFailed) <==>
      && ActivityUser(w, principal, scan, subaccountId).Some?
      && (Truthy(agencyId) || Truthy(subaccountId))
      && !(agencyId.Some? && agencyId.value in w.agencies
           && (Truthy(subaccountId) ==> SubAccountExists(w, subaccountId.value)))
    ensures r.world != w ==>
      var u := ActivityUser(w, principal, scan, subaccountId);
      && u.Some?
      && agencyId.Some? && agencyId.value in w.agencies
      && r.world.notifications == w.notifications + [Notification(
           u.value.name + " " + description, u.value.id, agencyId.value,
           if Truthy(subaccountId) then subaccountId else None)]
  {
    var userData := ActivityUser(w, principal, scan, subaccountId);
    if userData.None? then Step(Ok(()), w)
    else if !Truthy(agencyId) && !Truthy(subaccountId) then Step(Throw(AgencyOrSubaccountRequired), w)
    else
      var subId := if Truthy(subaccountId) then subaccountId else None;
      if agencyId.None? || agencyId.value !in w.agencies then Step(Throw(ConnectFailed), w)
      else if subId.Some? && !SubAccountExists(w, subId.value) then Step(Throw(ConnectFailed), w)
      else
        var entry := Notification(userData.value.name + " " + description, userData.value.id, agencyId.value, subId);
        Step(Ok(()), w.(notifications := w.notifications + [entry]))
  }

  /** The record an invitation provisions for the principal. */
  function InvitedUser(p: Principal, inv: Invitation): User {
    User(p.id, inv.email, FullName(p), p.imageUrl, inv.role, Some(inv.agencyId))
  }

  /** Invitation check run on every agency page load. Without a principal it
      redirects to sign in. Without a pending invitation it reports the agency
      of the principal's user record. With one, it creates the team user, logs
      "Joined", and, only when a user was created, writes the metadata role and
      deletes the invitation. */
  function VerifyAndAcceptInvitation(w: World, principal: Option<Principal>, scan: seq<string>): (r: Step<Membership>)
    ensures principal.None? ==> r == Step(Ok(RedirectTo("/sign-in")), w)
    ensures r.res.Ok? && r.res.value.RedirectTo? ==> principal.None?
    ensures r.world.agencies == w.agencies
    ensures principal.Some? && r.res.Ok? ==> r.res.value.AgencyOf?
  {
    match principal
    case None => Step(Ok(RedirectTo("/sign-in")), w)
    case Some(p) =>
      var pending := FindPendingInvitation(w, p.email);
      if pending.None? then
        var existing := FindUser(w, p.email);
        Step(Ok(AgencyOf(if existing.Some? then existing.value.agencyId else None)), w)
      else
        var inv := pending.value;
        var created := CreateTeamUser(w, inv.agencyId, InvitedUser(p, inv));
        if created.res.Throw? then Step(Throw(created.res.error), created.world)
        else
          var logged := SaveActivityLogsNotification(created.world, principal, scan, Some(inv.agencyId), "Joined", None);
          if logged.res.Throw? then Step(Throw(logged.res.error), logged.world)
          else if created.res.value.None? then Step(Ok(AgencyOf(None)), logged.world)
          else
            var u := created.res.value.value;
            var synced := logged.world.(metadataRole := logged.world.metadataRole[p.id := MetadataRoleFor(u.role)]);
            if u.email !in synced.invitations then Step(Throw(RecordNotFound), synced)
            else Step(Ok(AgencyOf(u.agencyId)), synced.(invitations := synced.invitations - {u.email}))
  }

  /** A partial update: every supplied field overwrites, the rest is kept. */
  function ApplyPatch(u: User, patch: UserPatch): (r: User)
    ensures r.id == u.id && r.email == u.email && r.agencyId == u.agencyId
    ensures r.name == patch.name.GetOr(u.name)
    ensures r.avatarUrl == patch.avatarUrl.GetOr(u.avatarUrl)
    ensures r.role == patch.role.GetOr(u.role)
  {
    u.(name := patch.name.GetOr(u.name),
       avatarUrl := patch.avatarUrl.GetOr(u.avatarUrl),
       role := patch.role.GetOr(u.role))
  }

  /** Creates or updates the principal's user record (keyed by email), then
      copies the stored role into the principal's metadata. */
  function InitUser(w: World, principal: Option<Principal>, patch: UserPatch): (r: Step<Option<User>>)
    ensures r.res.Ok?
    ensures principal.None? ==> r == Step(Ok(None), w)
    ensures principal.Some? ==>
      var p := principal.value;
      && r.res.value.Some?
      && r.world.users == w.users[p.email := r.res.value.value]
      && r.world.metadataRole == w.metadataRole[p.id := MetadataRoleFor(r.res.value.value.role)]
      && r.world.invitations == w.invitations
      && r.world.agencies == w.agencies
      && r.world.notifications == w.notifications
      && r.res.value.value.email == (if p.email in w.users then w.users[p.email].email else p.email)
  {
    match principal
    case None => Step(Ok(None), w)
    case Some(p) =>
      var stored :=
        if p.email in w.users then ApplyPatch(w.users[p.email], patch)
        else User(p.id, p.email, FullName(p), p.imageUrl, OrElse(patch.role, SubaccountUser), None);
      var written := w.(users := w.users[p.email := stored]);
      Step(Ok(Some(stored)), written.(metadataRole := written.metadataRole[p.id := MetadataRoleFor(stored.role)]))
  }

  /** The six menu entries a new agency starts with. */
  function DefaultSidebarOptions(agencyId: Id): seq<SidebarOption> {
    var base := "/agency/" + agencyId;
    [ SidebarOption("Dashboard", "category", base),
      SidebarOption("Launchpad", "clipboardIcon", base + "/launchpad"),
      SidebarOption("Billing", "payment", base + "/billing"),
      SidebarOption("Settings", "settings", base + "/settings"),
      SidebarOption("Sub Accounts", "person", base + "/all-subaccounts"),
      SidebarOption("Team", "shield", base + "/team") ]
  }

  /** The update half of the upsert: every sent column overwrites, and an
      undefined white-label flag or logo keeps the stored value. */
  function MergeInfo(stored: AgencyInfo, sent: AgencyInfo): (r: AgencyInfo)
    ensures r.whiteLabel == (if sent.whiteLabel.Some? then sent.whiteLabel else stored.whiteLabel)
    ensures r.agencyLogo == (if sent.agencyLogo.Some? then sent.agencyLogo else stored.agencyLogo)
    ensures r.(whiteLabel := sent.whiteLabel, agencyLogo := sent.agencyLogo) == sent
  {
    sent.(whiteLabel := if sent.whiteLabel.Some? then sent.whiteLabel else stored.whiteLabel,
          agencyLogo := if sent.agencyLogo.Some? then sent.agencyLogo else stored.agencyLogo)
  }

  /** Creates or updates the agency keyed by id. Creation also connects the
      user whose email is the company email (failing, and returning
      `undefined`, when there is none) and creates the default menu. */
  function UpsertAgency(w: World, agency: AgencyInfo): (r: Step<AgencyUpsert>)
    ensures r.res.Ok?
    ensures r.world.invitations == w.invitations && r.world.notifications == w.notifications
    ensures r.world.metadataRole == w.metadataRole
    ensures agency.companyEmail == "" ==> r == Step(Ok(NullResult), w)
    ensures r.res.value.UndefinedResult? ==> r.world == w
    ensures r.res.value.Saved? ==>
      && r.world.agencies == w.agencies[agency.id := r.res.value.agency]
      && r.res.value.agency.info.id == agency.id
    ensures r.world.users.Keys == w.users.Keys
    ensures forall e | e in w.users :: r.world.users[e] == w.users[e].(agencyId := r.world.users[e].agencyId)
  {
    if agency.companyEmail == "" then Step(Ok(NullResult), w)
    else if agency.id in w.agencies then
      var current := w.agencies[agency.id];
      var updated := current.(info := MergeInfo(current.info, agency));
      Step(Ok(Saved(updated)), w.(agencies := w.agencies[agency.id := updated]))
    else if agency.companyEmail !in w.users then Step(Ok(UndefinedResult), w)
    else
      var created := Agency(agency, DefaultSidebarOptions(agency.id), []);
      var owner := w.users[agency.companyEmail];
      Step(Ok(Saved(created)),
           w.(agencies := w.agencies[agency.id := created],
              users := w.users[agency.companyEmail := owner.(agencyId := Some(agency.id))]))
  }

  /** Deletes the agency row; deleting a missing row fails. */
  function DeleteAgency(w: World, agencyId: Id): (r: Step<Agency>)
    ensures r.res.Ok? <==> agencyId in w.agencies
    ensures r.res.Ok? ==>
      r.res.value == w.agencies[agencyId] && r.world == w.(agencies := w.agencies - {agencyId})
    ensures r.res.Throw? ==> r.world == w
    ensures agencyId !in r.world.agencies
  {
    if agencyId in w.agencies then Step(Ok(w.agencies[agencyId]), w.(agencies := w.agencies - {agencyId}))
    else Step(Throw(RecordNotFound), w)
  }
}

=== FILE: queries_lemmas.dfy ===
/** Properties of the server actions: the outcome of the invitation check in
    each of its cases, the writes that survive a failure half-way, repeat
    calls, the user initialisation, and the shape of a newly created agency. */
module QueryLemmas {
  import opened Common
  import opened Store
  import opened Queries

  /** The activity text the invitation check writes for a user name. */
  lemma JoinedText(name: string)
    ensures name + " " + "Joined" == name + " Joined"
  {
  }

  /** Without a pending invitation the check writes nothing and reports the
      agency of the principal's user record, or none when there is no record. */
  lemma AcceptWithoutInvitation(w: World, p: Principal, scan: seq<string>)
    requires FindPendingInvitation(w, p.email).None?
    ensures VerifyAndAcceptInvitation(w, Some(p), scan) ==
      Step(Ok(AgencyOf(if p.email in w.users then w.users[p.email].agencyId else None)), w)
  {
  }

  /** A pending invitation with a non-owner role, for an existing agency, and
      no user yet under that email: the user is created from the invitation
      and the principal, "Joined" is logged for the agency with no
      sub-account, the metadata role is set, the invitation is deleted, and
      the invitation's agency is returned. */
  lemma AcceptPendingInvitation(w: World, p: Principal, scan: seq<string>)
    requires WellFormed(w)
    requires p.email in w.invitations && w.invitations[p.email].status == Pending
    requires w.invitations[p.email].role != AgencyOwner
    requires w.invitations[p.email].agencyId != ""
    requires w.invitations[p.email].agencyId in w.agencies
    requires p.email !in w.users
    ensures var inv := w.invitations[p.email];
      var r := VerifyAndAcceptInvitation(w, Some(p), scan);
      && r.res == Ok(AgencyOf(Some(inv.agencyId)))
      && r.world.users == w.users[p.email := User(p.id, p.email, FullName(p), p.imageUrl, inv.role, Some(inv.agencyId))]
      && r.world.notifications == w.notifications + [Notification(FullName(p) + " Joined", p.id, inv.agencyId, None)]
      && r.world.metadataRole == w.metadataRole[p.id := if inv.role == "" then SubaccountUser else inv.role]
      && r.world.invitations == w.invitations - {p.email}
      && r.world.agencies == w.agencies
  {
    var inv := w.invitations[p.email];
    var u := InvitedUser(p, inv);
    assert u.email == p.email;
    var created := CreateTeamUser(w, inv.agencyId, u);
    assert created == Step(Ok(Some(u)), w.(users := w.users[p.email := u]));
    var logged := SaveActivityLogsNotification(created.world, Some(p), scan, Some(inv.agencyId), "Joined", None);
    assert ActivityUser(created.world, Some(p), scan, None) == Some(u);
    JoinedText(FullName(p));
    assert logged.world.notifications == w.notifications + [Notification(FullName(p) + " Joined", p.id, inv.agencyId, None)];
  }

  /** An owner-role invitation provisions nothing: no user, no metadata, and
      the invitation stays pending; a successful call returns no agency even
      when the principal already has a record. The "Joined" entry is still
      attempted: it is written exactly when the principal already has a user
      record and the invitation's agency exists. */
  lemma AcceptOwnerInvitation(w: World, p: Principal, scan: seq<string>)
    requires p.email in w.invitations && w.invitations[p.email].status == Pending
    requires w.invitations[p.email].role == AgencyOwner
    ensures var inv := w.invitations[p.email];
      var r := VerifyAndAcceptInvitation(w, Some(p), scan);
      && r.world.users == w.users
      && r.world.invitations == w.invitations
      && r.world.metadataRole == w.metadataRole
      && (r.res.Ok? ==> r.res.value == AgencyOf(None))
      && (p.email !in w.users ==> r == Step(Ok(AgencyOf(None)), w))
      && (p.email in w.users && inv.agencyId != "" && inv.agencyId in w.agencies ==>
            r.res.Ok? && r.world.notifications ==
              w.notifications + [Notification(w.users[p.email].name + " Joined", w.users[p.email].id, inv.agencyId, None)])
  {
    if p.email in w.users {
      JoinedText(w.users[p.email].name);
    }
  }

  /** A pending non-owner invitation for an email that already has a user
      record is never consumed: the insert fails on the duplicate email,
      nothing is written, and the invitation stays pending for the next
      page load. */
  lemma AcceptRegisteredInvitee(w: World, p: Principal, scan: seq<string>)
    requires WellFormed(w)
    requires p.email in w.invitations && w.invitations[p.email].status == Pending
    requires w.invitations[p.email].role != AgencyOwner
    requires p.email in w.users
    ensures var r := VerifyAndAcceptInvitation(w, Some(p), scan);
      && r == Step(Throw(DuplicateEmail), w)
      && FindPendingInvitation(r.world, p.email) == Some(w.invitations[p.email])
  {
  }

  /** An invitation whose agency is gone is never consumed: the user insert
      fails on the missing agency and nothing is written. */
  lemma AcceptMissingAgency(w: World, p: Principal, scan: seq<string>)
    requires p.email in w.invitations && w.invitations[p.email].status == Pending
    requires w.invitations[p.email].role != AgencyOwner
    requires w.invitations[p.email].agencyId !in w.agencies
    ensures var r := VerifyAndAcceptInvitation(w, Some(p), scan);
      && r.res.Throw?
      && r.world == w
      && FindPendingInvitation(r.world, p.email) == Some(w.invitations[p.email])
  {
  }

  /** The steps are not one transaction. An invitation whose agency id is the
      empty string (present as a row) gets its user inserted, and then the
      activity step throws. The user stays, the metadata is not written, and
      the invitation stays pending. */
  lemma AcceptIsNotAtomic(w: World, p: Principal, scan: seq<string>)
    requires WellFormed(w)
    requires p.email in w.invitations && w.invitations[p.email].status == Pending
    requires w.invitations[p.email].role != AgencyOwner
    requires w.invitations[p.email].agencyId == "" && "" in w.agencies
    requires p.email !in w.users
    ensures var r := VerifyAndAcceptInvitation(w, Some(p), scan);
      && r.res == Throw(AgencyOrSubaccountRequired)
      && r.world.users == w.users[p.email := InvitedUser(p, w.invitations[p.email])]
      && r.world.metadataRole == w.metadataRole
      && r.world.invitations == w.invitations
  {
  }

  /** Calling the check again after it succeeded returns the same answer and
      writes nothing, unless a pending owner-role invitation is involved. */
  lemma AcceptTwice(w: World, p: Principal, scan: seq<string>)
    requires WellFormed(w)
    requires VerifyAndAcceptInvitation(w, Some(p), scan).res.Ok?
    requires !(p.email in w.invitations && w.invitations[p.email].status == Pending
               && w.invitations[p.email].role == AgencyOwner)
    ensures var first := VerifyAndAcceptInvitation(w, Some(p), scan);
      VerifyAndAcceptInvitation(first.world, Some(p), scan) == Step(first.res, first.world)
  {
  }

  /** A principal who already has a record and holds a pending owner-role
      invitation gets one more "Joined" entry on every call. */
  lemma OwnerInvitationLogsEveryCall(w: World, p: Principal, scan: seq<string>)
    requires p.email in w.invitations && w.invitations[p.email].status == Pending
    requires w.invitations[p.email].role == AgencyOwner
    requires p.email in w.users
    requires w.invitations[p.email].agencyId != "" && w.invitations[p.email].agencyId in w.agencies
    ensures var first := VerifyAndAcceptInvitation(w, Some(p), scan);
      var second := VerifyAndAcceptInvitation(first.world, Some(p), scan);
      |second.world.notifications| == |w.notifications| + 2
  {
  }

  /** The invitation check keeps the tables keyed by their lookup columns. */
  lemma AcceptPreservesWellFormed(w: World, principal: Option<Principal>, scan: seq<string>)
    requires WellFormed(w)
    ensures WellFormed(VerifyAndAcceptInvitation(w, principal, scan).world)
  {
  }

  /** User initialisation: an existing record keeps its id, email and agency
      and takes only the supplied fields; a new record takes the principal's
      identity with the supplied role, or the sub-account user role when none
      is supplied. Either way the metadata role then mirrors the stored role. */
  lemma InitUserCases(w: World, p: Principal, patch: UserPatch)
    ensures var r := InitUser(w, Some(p), patch);
      var stored := r.res.value.value;
      && r.world.users[p.email] == stored
      && (p.email in w.users ==>
            var prior := w.users[p.email];
            && stored.id == prior.id && stored.email == prior.email && stored.agencyId == prior.agencyId
            && stored.name == (if patch.name.Some? then patch.name.value else prior.name)
            && stored.avatarUrl == (if patch.avatarUrl.Some? then patch.avatarUrl.value else prior.avatarUrl)
            && stored.role == (if patch.role.Some? then patch.role.value else prior.role))
      && (p.email !in w.users ==>
            stored == User(p.id, p.email, FullName(p), p.imageUrl,
                           if patch.role.Some? && patch.role.value != "" then patch.role.value else SubaccountUser,
                           None))
      && r.world.metadataRole[p.id] == (if stored.role == "" then SubaccountUser else stored.role)
  {
  }

  /** With only a non-empty role supplied, as every caller does, initialising
      twice leaves the same state as initialising once. */
  lemma InitUserIdempotent(w: World, p: Principal, role: string)
    requires role != ""
    ensures var patch := UserPatch(None, None, Some(role));
      var once := InitUser(w, Some(p), patch);
      InitUser(once.world, Some(p), patch) == once
  {
  }

  /** Initialisation keeps the tables keyed by their lookup columns. */
  lemma InitUserPreservesWellFormed(w: World, principal: Option<Principal>, patch: UserPatch)
    requires WellFormed(w)
    ensures WellFormed(InitUser(w, principal, patch).world)
  {
  }

  /** A new agency id with a registered company email creates the agency with
      exactly the six default menu entries, in order, linking under the
      agency's path, no sub-accounts, and connects that user to it. */
  lemma NewAgencyCreated(w: World, agency: AgencyInfo)
    requires agency.companyEmail != "" && agency.id !in w.agencies
    requires agency.companyEmail in w.users
    ensures var r := UpsertAgency(w, agency);
      var base := "/agency/" + agency.id;
      && r.res.value.Saved?
      && var saved := r.res.value.agency;
      && saved.info == agency
      && saved.subAccounts == []
      && |saved.sidebarOptions| == 6
      && (seq(6, i requires 0 <= i < 6 => saved.sidebarOptions[i].name) ==
            ["Dashboard", "Launchpad", "Billing", "Settings", "Sub Accounts", "Team"])
      && (seq(6, i requires 0 <= i < 6 => saved.sidebarOptions[i].link) ==
            [base, base + "/launchpad", base + "/billing", base + "/settings",
             base + "/all-subaccounts", base + "/team"])
      && r.world.users == w.users[agency.companyEmail := w.users[agency.companyEmail].(agencyId := Some(agency.id))]
  {
  }

  /** An existing agency id only updates the scalar columns: the menu, the
      sub-accounts and the users are untouched. */
  lemma ExistingAgencyUpdated(w: World, agency: AgencyInfo)
    requires agency.companyEmail != "" && agency.id in w.agencies
    ensures var r := UpsertAgency(w, agency);
      var before := w.agencies[agency.id];
      && r.res.value.Saved?
      && r.res.value.agency.sidebarOptions == before.sidebarOptions
      && r.res.value.agency.subAccounts == before.subAccounts
      && r.res.value.agency.info == MergeInfo(before.info, agency)
      && r.res.value.agency.info.name == agency.name
      && r.res.value.agency.info.companyEmail == agency.companyEmail
      && r.world.users == w.users
  {
  }

  /** A new agency whose company email matches no user fails inside the upsert,
      which swallows the failure and returns `undefined` with nothing written. */
  lemma NewAgencyWithoutOwner(w: World, agency: AgencyInfo)
    requires agency.companyEmail != "" && agency.id !in w.agencies
    requires agency.companyEmail !in w.users
    ensures UpsertAgency(w, agency) == Step(Ok(UndefinedResult), w)
  {
  }

  /** The agency upsert and delete keep the tables keyed by their lookup columns. */
  lemma AgencyWritesPreserveWellFormed(w: World, agency: AgencyInfo, id: Id)
    requires WellFormed(w)
    ensures WellFormed(UpsertAgency(w, agency).world)
    ensures WellFormed(DeleteAgency(w, id).world)
  {
  }

  /** Logged without a principal over a scan of the whole user table, an
      entry is written exactly when some stored user lies on the sub-account
      and the ids connect. */
  lemma AnonymousActivityLogged(w: World, scan: seq<string>, agencyId: Option<Id>,
                                description: string, subaccountId: Option<Id>)
    requires CoversUsers(w, scan)
    ensures var r := SaveActivityLogsNotification(w, None, scan, agencyId, description, subaccountId);
      r.res.Ok? && r.world != w <==>
        && (exists e | e in w.users :: OnSubAccount(w, w.users[e], subaccountId))
        && (Truthy(agencyId) || Truthy(subaccountId))
        && agencyId.Some? && agencyId.value in w.agencies
        && (Truthy(subaccountId) ==> SubAccountExists(w, subaccountId.value))
  {
    FindFirstCoversTable(w, scan, subaccountId);
  }
}

=== FILE: sidebar.dfy ===
/** The data the sidebar derives from the signed-in user's details before
    rendering: which record it describes, the logo, the menu entries and the
    sub-accounts the user may open. */
module Sidebar {
  import opened Common
  import opened Store

  const DefaultLogo: string := "/public/assets/logo_dark.png"

  datatype Permission = Permission(subAccountId: Id, access: bool)

  /** The user record with its agency (menu and sub-accounts included) and
      its permissions, as the details query loads them. */
  datatype UserDetails = UserDetails(user: User, agency: Option<Agency>, permissions: seq<Permission>)

  datatype SidebarType = AgencySidebar | SubaccountSidebar

  /** The record the menu describes: the agency itself, or the sub-account
      matched by id (possibly none). */
  datatype Details = OfAgency(agency: Agency) | OfSubAccount(subAccount: Option<SubAccount>)

  /** `null` without user details, `undefined` without an agency, else the
      derived data; a logo of `None` is an undefined logo. */
  datatype SidebarView =
    | NoUser
    | NoAgency
    | View(details: Details, logo: Option<string>, options: seq<SidebarOption>, subAccounts: seq<SubAccount>)

  /** The first sub-account with the given id. */
  function FindSubAccount(subs: seq<SubAccount>, id: Id): (r: Option<SubAccount>)
    ensures r.None? <==> forall i | 0 <= i < |subs| :: subs[i].id != id
    ensures r.Some? ==> exists i | 0 <= i < |subs| ::
      && subs[i] == r.value && r.value.id == id
      && forall j | 0 <= j < i :: subs[j].id != id
  {
    if subs == [] then None
    else if subs[0].id == id then Some(subs[0])
    else
      var rest := FindSubAccount(subs[1..], id);
      assert forall i | 1 <= i < |subs| :: subs[i] == subs[1..][i - 1];
      if rest.Some? then
        var k :| 0 <= k < |subs[1..]| && subs[1..][k] == rest.value && rest.value.id == id
                 && forall j | 0 <= j < k :: subs[1..][j].id != id;
        assert subs[k + 1] == rest.value;
        rest
      else rest
  }

  /** Some permission grants access to the sub-account. */
  predicate Permitted(perms: seq<Permission>, subId: Id) {
    exists i | 0 <= i < |perms| :: perms[i].subAccountId == subId && perms[i].access
  }

  /** `xs` is `ys` with some elements dropped, the rest kept in order. */
  ghost predicate SubsequenceOf<T>(xs: seq<T>, ys: seq<T>)
    decreases |ys|
  {
    if xs == [] then true
    else if ys == [] then false
    else if xs[0] == ys[0] then SubsequenceOf(xs[1..], ys[1..])
    else SubsequenceOf(xs, ys[1..])
  }

  /** The sub-accounts the permissions grant access to, in their order. */
  function PermittedSubAccounts(subs: seq<SubAccount>, perms: seq<Permission>): (r: seq<SubAccount>)
    ensures forall s :: s in r <==> s in subs && Permitted(perms, s.id)
    ensures SubsequenceOf(r, subs)
    ensures |r| <= |subs|
  {
    if subs == [] then []
    else
      var rest := PermittedSubAccounts(subs[1..], perms);
      assert forall s :: s in subs <==> s == subs[0] || s in subs[1..];
      if Permitted(perms, subs[0].id) then [subs[0]] + rest
      else
        assert rest == [] || rest[0] != subs[0];
        rest
  }

  /** The sidebar's derivation. The logo is the agency logo, or the default
      when it is empty; only a white-label agency's sub-account sidebar
      replaces it, by the sub-account's logo or else the agency logo as is. */
  function Derive(user: Option<UserDetails>, kind: SidebarType, id: Id): (r: SidebarView)
    ensures user.None? <==> r.NoUser?
    ensures r.NoAgency? <==> user.Some? && user.value.agency.None?
    ensures r.View? ==> var agency := user.value.agency.value;
      && r.subAccounts == PermittedSubAccounts(agency.subAccounts, user.value.permissions)
      && r.details == (if kind == AgencySidebar then OfAgency(agency)
                       else OfSubAccount(FindSubAccount(agency.subAccounts, id)))
  {
    match user
    case None => NoUser
    case Some(u) =>
      match u.agency
      case None => NoAgency
      case Some(agency) =>
        var matched := FindSubAccount(agency.subAccounts, id);
        var details := if kind == AgencySidebar then OfAgency(agency) else OfSubAccount(matched);
        var baseLogo := OrElse(agency.info.agencyLogo, DefaultLogo);
        var logo :=
          if agency.info.whiteLabel == Some(true) && kind == SubaccountSidebar then
            if matched.Some? && matched.value.subAccountLogo != "" then Some(matched.value.subAccountLogo)
            else agency.info.agencyLogo
          else Some(baseLogo);
        var options :=
          if kind == AgencySidebar then agency.sidebarOptions
          else if matched.Some? then matched.value.sidebarOptions
          else [];
        View(details, logo, options, PermittedSubAccounts(agency.subAccounts, u.permissions))
  }

  /** Outside a white-label agency's sub-account sidebar the logo is the
      agency logo, or the default when that is empty. Inside it the logo is
      the matched sub-account's logo when non-empty, else the agency logo as
      stored, so it can be empty or undefined and is never the default unless
      one of the two logos is. */
  lemma LogoRule(u: UserDetails, kind: SidebarType, id: Id)
    requires u.agency.Some?
    ensures var agency := u.agency.value;
      var r := Derive(Some(u), kind, id);
      var matched := FindSubAccount(agency.subAccounts, id);
      && r.View?
      && (!(agency.info.whiteLabel == Some(true) && kind == SubaccountSidebar) ==>
            r.logo == Some(if Truthy(agency.info.agencyLogo) then agency.info.agencyLogo.value else DefaultLogo))
      && (agency.info.whiteLabel == Some(true) && kind == SubaccountSidebar ==>
            && (matched.Some? && matched.value.subAccountLogo != "" ==> r.logo == Some(matched.value.subAccountLogo))
            && (!(matched.Some? && matched.value.subAccountLogo != "") ==> r.logo == agency.info.agencyLogo)
            && (r.logo == Some(DefaultLogo) ==>
                  agency.info.agencyLogo == Some(DefaultLogo) || (matched.Some? && matched.value.subAccountLogo == DefaultLogo)))
  {
  }

  /** The menu is the agency's for an agency sidebar; for a sub-account
      sidebar it is the first sub-account's with that id, or empty when no
      sub-account has it. */
  lemma OptionsRule(u: UserDetails, kind: SidebarType, id: Id)
    requires u.agency.Some?
    ensures var agency := u.agency.value;
      var r := Derive(Some(u), kind, id);
      && r.View?
      && (kind == AgencySidebar ==> r.options == agency.sidebarOptions)
      && (kind == SubaccountSidebar && (forall i | 0 <= i < |agency.subAccounts| :: agency.subAccounts[i].id != id) ==>
            r.options == [])
      && (kind == SubaccountSidebar ==>
            forall i | 0 <= i < |agency.subAccounts| && agency.subAccounts[i].id == id
                       && (forall j | 0 <= j < i :: agency.subAccounts[j].id != id) ::
              r.options == agency.subAccounts[i].sidebarOptions)
  {
    var agency := u.agency.value;
    var matched := FindSubAccount(agency.subAccounts, id);
    if kind == SubaccountSidebar && matched.Some? {
      forall i | 0 <= i < |agency.subAccounts| && agency.subAccounts[i].id == id
                 && (forall j | 0 <= j < i :: agency.subAccounts[j].id != id)
        ensures matched.value == agency.subAccounts[i]
      {
        var k :| 0 <= k < |agency.subAccounts| && agency.subAccounts[k] == matched.value && matched.value.id == id
                 && forall j | 0 <= j < k :: agency.subAccounts[j].id != id;
        assert !(k < i) && !(i < k);
      }
    }
  }
}

=== FILE: store.dfy ===
/** The application's records and the abstract state they live in: the user,
    invitation, agency and notification tables of the relational store, and the
    identity provider's private metadata. The primitives at the end are the few
    table operations whose failure conditions the workflows depend on. */
module Store {
  import opened Common

  /** Role sentinels compared as strings by the application. */
  const AgencyOwner: string := "AGENCY_OWNER"
  const SubaccountUser: string := "SUBACCOUNT_USER"

  /** The only invitation status the workflows look for. */
  const Pending: string := "PENDING"

  datatype User = User(
    id: Id,
    email: string,
    name: string,
    avatarUrl: string,
    role: string,
    agencyId: Option<Id>)

  datatype Invitation = Invitation(email: string, agencyId: Id, role: string, status: string)

  datatype SidebarOption = SidebarOption(name: string, icon: string, link: string)

  datatype SubAccount = SubAccount(
    id: Id,
    name: string,
    subAccountLogo: string,
    sidebarOptions: seq<SidebarOption>)

  /** The scalar columns of an agency, as sent to the upsert. A missing
      `whiteLabel` or `agencyLogo` is a field left undefined by the caller. */
  datatype AgencyInfo = AgencyInfo(
    id: Id,
    customerId: string,
    name: string,
    companyEmail: string,
    companyPhone: string,
    whiteLabel: Option<bool>,
    address: string,
    city: string,
    zipCode: string,
    state: string,
    country: string,
    agencyLogo: Option<string>,
    goal: int,
    connectAccountId: string)

  /** A stored agency with the relations the application reads back. */
  datatype Agency = Agency(
    info: AgencyInfo,
    sidebarOptions: seq<SidebarOption>,
    subAccounts: seq<SubAccount>)

  datatype Notification = Notification(
    text: string,
    userId: Id,
    agencyId: Id,
    subAccountId: Option<Id>)

  /** Everything the server actions read or write. */
  datatype World = World(
    users: map<string, User>,
    invitations: map<string, Invitation>,
    agencies: map<Id, Agency>,
    notifications: seq<Notification>,
    metadataRole: map<Id, string>)

  /** The authenticated principal: its primary email address and its names,
      either of which the identity provider may leave unset. */
  datatype Principal = Principal(
    id: Id,
    email: string,
    firstName: Option<string>,
    lastName: Option<string>,
    imageUrl: string)

  /** Failures the store raises; each aborts the server action that hit it. */
  datatype Error =
    | DuplicateEmail
    | MissingAgency
    | ConnectFailed
    | AgencyOrSubaccountRequired
    | RecordNotFound

  datatype Res<+T> = Ok(value: T) | Throw(error: Error)

  /** One sequential step: what the action returned (or threw) and the state
      after it. Writes made before a throw stay in `world`. */
  datatype Step<+T> = Step(res: Res<T>, world: World)

  /** Tables are keyed by the column they are looked up by. */
  predicate WellFormed(w: World) {
    && (forall e | e in w.users :: w.users[e].email == e)
    && (forall e | e in w.invitations :: w.invitations[e].email == e)
    && (forall a | a in w.agencies :: w.agencies[a].info.id == a)
  }

  /** `${firstName} ${lastName}` */
  function FullName(p: Principal): string {
    ShowOrNull(p.firstName) + " " + ShowOrNull(p.lastName)
  }

  /** The user with this email, if any. */
  function FindUser(w: World, email: string): (r: Option<User>)
    ensures r.Some? <==> email in w.users
    ensures r.Some? ==> r.value == w.users[email]
  {
    if email in w.users then Some(w.users[email]) else None
  }

  /** The invitation with this email, only while its status is pending. */
  function FindPendingInvitation(w: World, email: string): (r: Option<Invitation>)
    ensures r.Some? <==> email in w.invitations && w.invitations[email].status == Pending
    ensures r.Some? ==> r.value == w.invitations[email]
  {
    if email in w.invitations && w.invitations[email].status == Pending
    then Some(w.invitations[email])
    else None
  }

  /** Some stored agency owns a sub-account with this id. */
  predicate SubAccountExists(w: World, subId: Id) {
    exists a, i | a in w.agencies && 0 <= i < |w.agencies[a].subAccounts| ::
      w.agencies[a].subAccounts[i].id == subId
  }

  /** The user belongs to an agency that has a sub-account with the given id,
      or any sub-account at all when no id is given: a filter on an undefined
      value is dropped by the store's query builder. */
  predicate OnSubAccount(w: World, u: User, subId: Option<Id>) {
    && u.agencyId.Some?
    && u.agencyId.value in w.agencies
    && var subs := w.agencies[u.agencyId.value].subAccounts;
       exists i | 0 <= i < |subs| :: subId.None? || subs[i].id == subId.value
  }

  /** The row order `scan` lists every stored user, as a scan of the whole
      table does. */
  predicate CoversUsers(w: World, scan: seq<string>) {
    forall e | e in w.users :: e in scan
  }

  /** The first user, in the store's row order `scan`, that lies on the
      sub-account. */
  function FindFirstOnSubAccount(w: World, scan: seq<string>, subId: Option<Id>): (r: Option<User>)
    ensures r.Some? ==> OnSubAccount(w, r.value, subId)
    ensures r.None? <==>
      forall k | 0 <= k < |scan| :: scan[k] !in w.users || !OnSubAccount(w, w.users[scan[k]], subId)
    ensures r.Some? ==> exists k | 0 <= k < |scan| ::
      && scan[k] in w.users && w.users[scan[k]] == r.value
      && forall j | 0 <= j < k :: scan[j] !in w.users || !OnSubAccount(w, w.users[scan[j]], subId)
  {
    if scan == [] then None
    else if scan[0] in w.users && OnSubAccount(w, w.users[scan[0]], subId) then
      var r := Some(w.users[scan[0]]);
      assert scan[0] in w.users && w.users[scan[0]] == r.value;
      r
    else
      var rest := FindFirstOnSubAccount(w, scan[1..], subId);
      assert forall k | 1 <= k < |scan| :: scan[k] == scan[1..][k - 1];
      if rest.Some? then
        var k :| 0 <= k < |scan[1..]| && scan[1..][k] in w.users && w.users[scan[1..][k]] == rest.value
                 && forall j | 0 <= j < k :: scan[1..][j] !in w.users || !OnSubAccount(w, w.users[scan[1..][j]], subId);
        assert scan[k + 1] in w.users && w.users[scan[k + 1]] == rest.value;
        rest
      else rest
  }
  /** Over a scan of the whole table, the search finds nothing exactly when
      no stored user lies on the sub-account. */
  lemma FindFirstCoversTable(w: World, scan: seq<string>, subId: Option<Id>)
    requires CoversUsers(w, scan)
    ensures FindFirstOnSubAccount(w, scan, subId).None? <==>
      forall e | e in w.users :: !OnSubAccount(w, w.users[e], subId)
  {
    if FindFirstOnSubAccount(w, scan, subId).None? {
      forall e | e in w.users ensures !OnSubAccount(w, w.users[e], subId) {
        var k :| 0 <= k < |scan| && scan[k] == e;
      }
    }
  }


  /** Inserts a user row. Fails when the email is taken or the agency it
      references does not exist; on failure nothing is written. */
  function CreateUser(w: World, u: User): (r: Step<User>)
    ensures r.res.Ok? <==>
      u.email !in w.users && (u.agencyId.None? || u.agencyId.value in w.agencies)
    ensures r.res.Ok? ==> r.res.value == u && r.world == w.(users := w.users[u.email := u])
    ensures r.res.Throw? ==> r.world == w
  {
    if u.email in w.users then Step(Throw(DuplicateEmail), w)
    else if u.agencyId.Some? && u.agencyId.value !in w.agencies then Step(Throw(MissingAgency), w)
    else Step(Ok(u), w.(users := w.users[u.email := u]))
  }
}

=== FILE: test_form.dfy ===
/** The agency profile form: its schema as a validator (email and URL checks
    are opaque predicates), its default values, and its submit decision. */
module ProfileForm {
  import opened Common
  import opened Store
  import opened Queries
  import opened AgencyForm

  /** The form's fields as entered; an unset switch leaves `whiteLabel` undefined. */
  datatype Input = Input(
    name: string, companyEmail: string, companyPhone: string, whiteLabel: Option<bool>,
    address: string, city: string, state: string, zipCode: string, country: string,
    agencyLogo: string)

  /** The values the schema hands to the submit handler. */
  datatype Values = Values(
    name: string, companyEmail: string, companyPhone: string, whiteLabel: bool,
    address: string, city: string, state: string, zipCode: string, country: string,
    agencyLogo: string)

  datatype Parsed = Accepted(values: Values) | Rejected(issues: seq<Issue>)

  /** The issues of the name, email and phone rules. */
  function ContactIssues(i: Input, isEmail: string -> bool): seq<Issue> {
    Rule(Name, |i.name| >= 2, "Name must be at least 3 characters")
    + Rule(CompanyEmail, isEmail(i.companyEmail), "Invalid email address")
    + Rule(CompanyPhone, |i.companyPhone| >= 10, "Phone number must be at least 10 characters")
  }

  /** The issues of the address rules. */
  function PlaceIssues(i: Input): seq<Issue> {
    Rule(Address, |i.address| >= 10, "Address must be at least 10 characters")
    + Rule(City, |i.city| >= 3, "City must be at least 3 characters")
    + Rule(State, |i.state| >= 2, "State must be at least 2 characters")
    + Rule(ZipCode, |i.zipCode| >= 5, "Zip must be at least 5 characters")
    + Rule(Country, |i.country| >= 2, "Country must be at least 3 characters")
  }

  /** The issues of every rule, in the schema's field order. */
  function IssueList(i: Input, isEmail: string -> bool, isUrl: string -> bool): seq<Issue> {
    ContactIssues(i, isEmail) + PlaceIssues(i) + Rule(AgencyLogo, isUrl(i.agencyLogo), "Invalid URL")
  }

  /** The contact fields whose rule the input breaks. */
  function ContactFailed(i: Input, isEmail: string -> bool): set<Field> {
    Mark(Name, |i.name| >= 2)
    + Mark(CompanyEmail, isEmail(i.companyEmail))
    + Mark(CompanyPhone, |i.companyPhone| >= 10)
  }

  /** The address fields whose rule the input breaks. */
  function PlaceFailed(i: Input): set<Field> {
    Mark(Address, |i.address| >= 10)
    + Mark(City, |i.city| >= 3)
    + Mark(State, |i.state| >= 2)
    + Mark(ZipCode, |i.zipCode| >= 5)
    + Mark(Country, |i.country| >= 2)
  }

  /** The fields whose rule the input breaks: the reference the issue list
      is checked against. The switch never fails. */
  function Failed(i: Input, isEmail: string -> bool, isUrl: string -> bool): set<Field> {
    ContactFailed(i, isEmail) + PlaceFailed(i) + Mark(AgencyLogo, isUrl(i.agencyLogo))
  }

  /** The contact issues are about exactly the failed contact fields. */
  lemma ContactFields(i: Input, isEmail: string -> bool)
    ensures FieldsOf(ContactIssues(i, isEmail)) == ContactFailed(i, isEmail)
  {
    var r1 := Rule(Name, |i.name| >= 2, "Name must be at least 3 characters");
    var r2 := Rule(CompanyEmail, isEmail(i.companyEmail), "Invalid email address");
    var r3 := Rule(CompanyPhone, |i.companyPhone| >= 10, "Phone number must be at least 10 characters");
    FieldsOfAppend(r1, r2);
    FieldsOfAppend(r1 + r2, r3);
  }

  /** The address issues are about exactly the failed address fields. */
  lemma PlaceFields(i: Input)
    ensures FieldsOf(PlaceIssues(i)) == PlaceFailed(i)
  {
    var r4 := Rule(Address, |i.address| >= 10, "Address must be at least 10 characters");
    var r5 := Rule(City, |i.city| >= 3, "City must be at least 3 characters");
    var r6 := Rule(State, |i.state| >= 2, "State must be at least 2 characters");
    var r7 := Rule(ZipCode, |i.zipCode| >= 5, "Zip must be at least 5 characters");
    var r8 := Rule(Country, |i.country| >= 2, "Country must be at least 3 characters");
    FieldsOfAppend(r4, r5);
    FieldsOfAppend(r4 + r5, r6);
    FieldsOfAppend(r4 + r5 + r6, r7);
    FieldsOfAppend(r4 + r5 + r6 + r7, r8);
  }

  /** The issue list is about exactly the failed fields. */
  lemma IssueFields(i: Input, isEmail: string -> bool, isUrl: string -> bool)
    ensures FieldsOf(IssueList(i, isEmail, isUrl)) == Failed(i, isEmail, isUrl)
  {
    var contact := ContactIssues(i, isEmail);
    var place := PlaceIssues(i);
    var logo := Rule(AgencyLogo, isUrl(i.agencyLogo), "Invalid URL");
    ContactFields(i, isEmail);
    PlaceFields(i);
    FieldsOfAppend(contact, place);
    FieldsOfAppend(contact + place, logo);
  }

  /** Every rule holds exactly when the issue list is empty. */
  lemma IssuesEmpty(i: Input, isEmail: string -> bool, isUrl: string -> bool)
    ensures IssueList(i, isEmail, isUrl) == [] <==>
      && |i.name| >= 2 && isEmail(i.companyEmail) && |i.companyPhone| >= 10
      && |i.address| >= 10 && |i.city| >= 3 && |i.state| >= 2 && |i.zipCode| >= 5
      && |i.country| >= 2 && isUrl(i.agencyLogo)
  {
  }

  /** A short name is the first issue reported. */
  lemma IssuesStartWithName(i: Input, isEmail: string -> bool, isUrl: string -> bool)
    ensures |i.name| < 2 ==>
      |IssueList(i, isEmail, isUrl)| > 0 && IssueList(i, isEmail, isUrl)[0] == Issue(Name, "Name must be at least 3 characters")
  {
  }

  /** The schema: every rule is checked and all failures are reported, in
      field order. A name of two characters passes although the message asks
      for three, and so does a country of two. */
  function Validate(i: Input, isEmail: string -> bool, isUrl: string -> bool): (r: Parsed)
    ensures r.Accepted? <==>
      && |i.name| >= 2 && isEmail(i.companyEmail) && |i.companyPhone| >= 10
      && |i.address| >= 10 && |i.city| >= 3 && |i.state| >= 2 && |i.zipCode| >= 5
      && |i.country| >= 2 && isUrl(i.agencyLogo)
    ensures r.Accepted? ==> r.values == Values(
      i.name, i.companyEmail, i.companyPhone, i.whiteLabel.GetOr(false),
      i.address, i.city, i.state, i.zipCode, i.country, i.agencyLogo)
    ensures r.Rejected? ==> FieldsOf(r.issues) == Failed(i, isEmail, isUrl)
    ensures r.Rejected? && |i.name| < 2 ==> |r.issues| > 0 && r.issues[0] == Issue(Name, "Name must be at least 3 characters")
  {
    var issues := IssueList(i, isEmail, isUrl);
    IssueFields(i, isEmail, isUrl);
    IssuesEmpty(i, isEmail, isUrl);
    IssuesStartWithName(i, isEmail, isUrl);
    if issues == [] then
      Accepted(Values(i.name, i.companyEmail, i.companyPhone, i.whiteLabel.GetOr(false),
                      i.address, i.city, i.state, i.zipCode, i.country, i.agencyLogo))
    else
      Rejected(issues)
  }

  /** The form's initial values: each field of the draft, or empty (or off)
      when the draft or the field is missing. */
  function Defaults(data: Option<Draft>): (r: Input)
    ensures data.None? ==> r == Input("", "", "", Some(false), "", "", "", "", "", "")
    ensures data.Some? ==>
      && r.name == data.value.name.GetOr("")
      && r.companyEmail == data.value.companyEmail.GetOr("")
      && r.companyPhone == data.value.companyPhone.GetOr("")
      && r.whiteLabel == Some(data.value.whiteLabel == Some(true))
      && r.address == data.value.address.GetOr("")
      && r.city == data.value.city.GetOr("")
      && r.state == data.value.state.GetOr("")
      && r.zipCode == data.value.zipCode.GetOr("")
      && r.country == data.value.country.GetOr("")
      && r.agencyLogo == data.value.agencyLogo.GetOr("")
  {
    var d := data.GetOr(EmptyDraft);
    Input(TextDefault(d.name), TextDefault(d.companyEmail), TextDefault(d.companyPhone),
          Some(FlagDefault(d.whiteLabel)), TextDefault(d.address), TextDefault(d.city),
          TextDefault(d.state), TextDefault(d.zipCode), TextDefault(d.country),
          TextDefault(d.agencyLogo))
  }

  /** A form opened without data is rejected as it stands, starting with the
      name. */
  lemma BlankFormRejected(isEmail: string -> bool, isUrl: string -> bool)
    ensures var r := Validate(Defaults(None), isEmail, isUrl);
      && r.Rejected?
      && r.issues[0] == Issue(Name, "Name must be at least 3 characters")
      && Address in FieldsOf(r.issues) && City in FieldsOf(r.issues)
  {
  }

  /** The agency record the submit sends: the draft's id or a fresh one, a
      fresh customer id, the validated values, a goal of 5 and no connected
      account. */
  function Record(data: Option<Draft>, v: Values, freshId: Id, freshCustomerId: string): AgencyInfo {
    AgencyInfo(ChosenId(data, freshId), freshCustomerId, v.name, v.companyEmail, v.companyPhone,
               Some(v.whiteLabel), v.address, v.city, v.zipCode, v.state, v.country,
               Some(v.agencyLogo), 5, "")
  }

  /** The values as the form holds them, with the switch set. */
  function AsInput(v: Values): Input {
    Input(v.name, v.companyEmail, v.companyPhone, Some(v.whiteLabel), v.address, v.city,
          v.state, v.zipCode, v.country, v.agencyLogo)
  }

  /** Reopening the form on the record a submit sent shows the submitted
      values again, and they validate as before. */
  lemma ReopenShowsValues(data: Option<Draft>, v: Values, freshId: Id, freshCustomerId: string,
                          isEmail: string -> bool, isUrl: string -> bool)
    requires Validate(AsInput(v), isEmail, isUrl).Accepted?
    ensures Defaults(Some(DraftOf(Record(data, v, freshId, freshCustomerId)))) == AsInput(v)
    ensures Validate(Defaults(Some(DraftOf(Record(data, v, freshId, freshCustomerId)))), isEmail, isUrl) == Accepted(v)
  {
  }

  /** The submit: the principal becomes an agency owner, then the record is
      upserted unless the draft has a customer id. */
  function OnSubmit(w: World, principal: Option<Principal>, data: Option<Draft>, v: Values,
                    freshId: Id, freshCustomerId: string): (r: Submission)
    ensures r.sent.Some? <==> !HasCustomer(data)
    ensures r.sent.Some? ==>
      UpsertedInto(w.agencies, r.world.agencies, r.sent.value, KnownAfterInit(w, principal, v.companyEmail))
    ensures r.sent.None? ==> r.world.agencies == w.agencies
    ensures r.world.invitations == w.invitations && r.world.notifications == w.notifications
    ensures r.world.metadataRole == (if principal.Some? then w.metadataRole[principal.value.id := AgencyOwner] else w.metadataRole)
    ensures forall e | e in w.users && (principal.None? || e != principal.value.email) ::
      && e in r.world.users
      && r.world.users[e] == w.users[e].(agencyId := r.world.users[e].agencyId)
      && (r.world.users[e].agencyId != w.users[e].agencyId ==> r.sent.Some? && e == v.companyEmail)
    ensures r.sent.Some? ==>
      && r.sent.value.id == ChosenId(data, freshId)
      && r.sent.value.customerId == freshCustomerId
      && r.sent.value.goal == 5
      && r.sent.value.whiteLabel == Some(v.whiteLabel)
      && r.sent.value.agencyLogo == Some(v.agencyLogo)
      && r.sent.value.name == v.name
      && r.sent.value.companyEmail == v.companyEmail
      && r.sent.value.companyPhone == v.companyPhone
      && r.sent.value.address == v.address
      && r.sent.value.city == v.city
      && r.sent.value.state == v.state
      && r.sent.value.zipCode == v.zipCode
      && r.sent.value.country == v.country
      && r.sent.value.connectAccountId == ""
    ensures principal.Some? ==>
      && principal.value.email in r.world.users
      && r.world.users[principal.value.email].role == AgencyOwner
      && principal.value.id in r.world.metadataRole
      && r.world.metadataRole[principal.value.id] == AgencyOwner
  {
    Submit(w, principal, data, AgencyOwner, Record(data, v, freshId, freshCustomerId))
  }

  /** A first submit whose company email is the principal's own creates the
      agency with its default menu and makes the principal its owner. */
  lemma SubmitCreatesOwnedAgency(w: World, p: Principal, data: Option<Draft>, v: Values,
                                 freshId: Id, freshCustomerId: string)
    requires !HasCustomer(data) && v.companyEmail == p.email && p.email != ""
    requires ChosenId(data, freshId) !in w.agencies
    ensures var id := ChosenId(data, freshId);
      var r := OnSubmit(w, Some(p), data, v, freshId, freshCustomerId);
      && id in r.world.agencies
      && r.world.agencies[id].info == Record(data, v, freshId, freshCustomerId)
      && r.world.agencies[id].sidebarOptions == DefaultSidebarOptions(id)
      && r.world.agencies[id].subAccounts == []
      && r.world.users[p.email].agencyId == Some(id)
      && r.world.users[p.email].role == AgencyOwner
      && r.world.metadataRole[p.id] == AgencyOwner
  {
  }

  /** When no user has the company email, the submit creates no agency: the
      upsert's error is swallowed and only the principal's user changes. */
  lemma SubmitWithoutOwnerCreatesNothing(w: World, principal: Option<Principal>, data: Option<Draft>,
                                         v: Values, freshId: Id, freshCustomerId: string)
    requires !HasCustomer(data) && v.companyEmail != "" && v.companyEmail !in w.users
    requires principal.Some? ==> principal.value.email != v.companyEmail
    requires ChosenId(data, freshId) !in w.agencies
    ensures OnSubmit(w, principal, data, v, freshId, freshCustomerId).world.agencies == w.agencies
  {
  }
}
